=== FILE: README.md ===
# VigilEye risk scoring and form validation, in Dafny

VigilEye is a child-safety monitor. A child's device posts chat text to the
backend. The backend scores the text against two keyword lists. A high score
stores an alert and calls a placeholder notification hook, which only writes
to the server log. A parent dashboard lists the
stored alerts by score band. The browser pages validate the parent
registration form, the sign-up form and the child login form before
anything is sent.

This project models that core as pure Dafny functions. `Text` holds the
string primitives the other modules share. `ChatScoring` and `Dashboard` both
follow `api/views.py`: the chat-analysis endpoint and the dashboard view.
Every other module follows one source file:

- `text.dfy` (`Text`): the string primitives the core relies on.
  - JavaScript's `trim` and `\s` use the ECMAScript whitespace set.
  - `.length` counts UTF-16 code units.
  - Python's `lower` is modelled on ASCII.
  - `Number.toString`, substring search and character counts.
- `chat_scoring.dfy` (`ChatScoring`): the scorer of the chat-analysis endpoint, written both as a recursive definition and as the endpoint's nested loop. Also the alert threshold.
- `risk_models.dfy` (`RiskModels`): the `Alert` and `Message` records, their score-to-tier classification and the recomputation of the stored tier on save.
- `dashboard.dfy` (`Dashboard`): the dashboard's `risk` filter and its list of critical alerts.
- `registration_validation.dfy` (`RegistrationValidation`): the registration page's validators, password-strength meter, OTP button checks and submit gate.
- `signup_validation.dfy` (`SignupValidation`): the second copy of the validators used by the static sign-up page, with its untrimmed OTP and submit checks.
- `login_page.dfy` (`LoginPage`): the child login page. It covers:
  - the phone and OTP patterns;
  - the Kinder-ID and phone form checks;
  - the check run when a field loses focus;
  - the OTP countdown and its `m:ss` display.

The scorer has two keyword lists, weighted 5 and 2, matched as lower-case substrings line by line.

## Model

| member | source | states |
|---|---|---|
| ChatScoring.Analyze | api/views.py:30-54 | The score lies between 0 and 27 times the number of lines. A line is in `flagged_lines` exactly when it is a line of the text containing some keyword of either list, in any letter case. The flagged lines have no duplicates. The score is 0 exactly when nothing is flagged. |
| ChatScoring.AnalyzeChat | api/views.py:30-46 | The endpoint's loop computes exactly the recursive definition `Analyze`: over the lines, each list in order, per keyword +weight and one append of the original line, then deduplication. |
| ChatScoring.ScanKeywords | api/views.py:39-46 | One inner loop adds `weight` once per keyword present in the lowered line and appends the original line once per such keyword. |
| ChatScoring.SplitShape | api/views.py:37 | `text.split('\n')` yields one more part than the text has line feeds, and no part contains a line feed. |
| ChatScoring.JoinSplit | api/views.py:37 | Splitting loses nothing: the parts joined with line feeds give back the text. |
| ChatScoring.SplitAppend | api/views.py:37 | Splitting `a + "\n" + b` gives the parts of `a` followed by the parts of `b`. |
| ChatScoring.SplitCommutesLower | api/views.py:37-38 | Lower-casing before or after splitting gives the same lines, because the line feed is unaffected by lowering. |
| ChatScoring.LineScore | api/views.py:38-46 | One line contributes at most 27 (every keyword of both lists). |
| ChatScoring.MatchCountPositive | api/views.py:39-46 | A list contributes to a line exactly when one of its keywords occurs in the lowered line. |
| ChatScoring.LineHitsFlagged | api/views.py:38-46 | A line is appended to the flagged list, and adds to the score, exactly when some keyword occurs in it. |
| ChatScoring.OverlappingKeywordsStack | api/views.py:34-46 | "meet me" also contains "meet", and "come alone" also contains "alone", so one line with either phrase scores at least 7. |
| ChatScoring.TotalScoreAppend | api/views.py:37-46 | The total over two runs of lines is the sum of the totals. |
| ChatScoring.FlaggedListMembers | api/views.py:42-46 | Before deduplication, the flagged list holds exactly the lines with at least one hit. |
| ChatScoring.TotalScoreZero | api/views.py:37-46 | The total is zero exactly when no line was flagged. |
| ChatScoring.TotalScoreZeroIff | api/views.py:37-46 | The total is zero exactly when every line scores zero. |
| ChatScoring.TotalScoreCoversLine | api/views.py:37-46 | The total is at least the score of any one line. |
| ChatScoring.TotalScoreBound | api/views.py:37-46 | The total is at most 27 per line. |
| ChatScoring.Dedup | api/views.py:54 | `list(set(flagged_lines))` has the same members as the list and no duplicates. |
| ChatScoring.Repeat | api/views.py:42-46 | `n` appends of one line hold that line `n` times and nothing else. |
| ChatScoring.ScoreAdditive | api/views.py:37-46 | The score of two texts joined by a line feed is the sum of their scores. |
| ChatScoring.TotalScoreLower | api/views.py:38 | Lines equal after lowering score the same. |
| ChatScoring.ScoreCaseInsensitive | api/views.py:38 | Texts equal after lower-casing score the same. |
| ChatScoring.GroomingPhraseReachesThreshold | api/views.py:34-51 | Any line containing "meet me" or "come alone", in any letter case, makes the endpoint create an alert. |
| ChatScoring.WhitespaceScoresZero | api/views.py:30-54 | Text made only of whitespace scores 0 and flags nothing. |
| ChatScoring.SplitWhitespace | api/views.py:37 | Every line of a whitespace-only text is whitespace-only. |
| ChatScoring.MeetMeLineScore | api/views.py:34-46 | A line made of the letters of "meet me" that contains "meet me" scores exactly 5 + 2. |
| ChatScoring.MeetMeLinesScoreSeven | api/views.py:38-46 | "meet me" and "meet me meet me" both score 7 as single lines. |
| ChatScoring.SingleLineScore | api/views.py:37-46 | A text without line feeds is scored as its single line. |
| ChatScoring.RepeatedPhraseCountsOnce | api/views.py:39-46 | "meet me meet me" scores the same 7 as "meet me": the repeated line contains the same keywords. |
| ChatScoring.SameKeywordsSameScore | api/views.py:39-46 | Matching is by presence: two lines containing the same keywords once lower-cased score the same and are appended to the flagged list equally often, however often each keyword occurs. |
| ChatScoring.MatchCountSameHits | api/views.py:39-46 | A list's count depends only on which of its keywords occur in the line. |
| ChatScoring.MeetLineScore | api/views.py:34-46 | A line made of the letters of "meet me" that contains "meet" but not "meet me" scores exactly 2. |
| ChatScoring.RepetitionCanRaiseScore | api/views.py:37-46 | Repetition can still change the score: "meet" scores 2, but "meet meet" contains "meet me" and scores 7. |
| ChatScoring.Split | api/views.py:37 | `text.split('\n')` always yields at least one line, even for the empty text. |
| ChatScoring.SplitNoNewline | api/views.py:37 | A text without line feeds splits into itself. |
| ChatScoring.EmptyTextScoresZero | api/views.py:27-54 | The default empty text scores 0 with no flagged lines. |
| ChatScoring.CreatesAlert | api/views.py:50 | An alert is created exactly at scores of at least one high-risk weight plus one medium-risk weight, 5 + 2. |
| ChatScoring.MatchCount | api/views.py:39-46 | Each keyword of a list counts at most once per line, so a list contributes at most its length. |
| Dashboard.AlertIffHighTier | api/views.py:50 | The endpoint alerts exactly on the scores that `Alert` classifies as high. |
| RiskModels.AlertRiskLevel | api/models.py:29-38 | The tier is high for scores of 7 or more, medium for 4 to 6, low for 1 to 3 and safe for 0 or less. Each tier holds exactly that range. |
| RiskModels.SaveAlert | api/models.py:40-43 | Saving sets `risk_level` to the key of the score's tier, which is one of `RISK_LEVELS`. The override changes no other field of the record. |
| RiskModels.SaveAlertIdempotent | api/models.py:40-43 | Saving twice is the same as saving once. |
| RiskModels.MessageRiskLevel | api/models.py:57-66 | The same thresholds applied to `risk_score`. |
| RiskModels.SaveMessage | api/models.py:68-71 | Saving a message sets its stored tier from its score. The override changes no other field of the record. |
| RiskModels.KeyIsChoice | api/models.py:15-20 | Every tier is stored under one of the four choice keys, and reading a key back gives the tier. |
| RiskModels.ParseKey | api/models.py:15-20 | A stored choice key reads back to the tier whose key it is. |
| RiskModels.RiskLevelsAgree | api/models.py:57-66 | The message classification agrees with the alert's (api/models.py lines 29-38) on equal scores. |
| RiskModels.RiskLevelMonotone | api/models.py:29-38 | A larger score never yields a lower tier. |
| RiskModels.RiskLevelOnlyFromScore | api/models.py:29-38 | The tier depends on the score alone. |
| Dashboard.ParseRiskFilter | api/views.py:104-112 | Only "high", "medium" and "low" select a band. Every other value, including the default "all", leaves the list unfiltered. |
| Dashboard.FilterAlerts | api/views.py:107-112 | The filtered list holds exactly the stored alerts whose score is in the band, and no more alerts than the store. |
| Dashboard.FilterAlertsAppend | api/views.py:107-112 | Filtering distributes over concatenation. With the single-alert case this fixes the result as the band's alerts in their stored order, each as often as it is stored. |
| Dashboard.FilterAlertsSingle | api/views.py:107-112 | A single alert is kept exactly when its score is in the band. |
| Dashboard.Render | api/views.py:104-117 | The listed alerts are the band's alerts. The critical alerts are the listed ones scoring 7 or more. |
| Dashboard.BandsPartition | api/views.py:107-112 | The three bands cover every score and do not overlap. |
| Dashboard.BandSizesAdd | api/views.py:107-112 | The three filtered lists together have as many alerts as the store. |
| Dashboard.BandsMatchTiers | api/views.py:107-112 | The high and medium bands are exactly the high and medium tiers. The low band is the low and safe tiers. |
| Dashboard.CriticalFollowsFilter | api/views.py:107-117 | Because the critical list is drawn from the filtered list, it is empty under the "medium" and "low" filters. Otherwise it holds every stored alert scoring 7 or more. |
| RegistrationValidation.ValidateName | templates/validation.js:1-5 | Empty exactly when the name is not blank and has at least 2 code units. The "empty" message appears exactly for blank names. |
| RegistrationValidation.ValidateEmail | templates/validation.js:7-13 | The result is either empty or the email message. |
| RegistrationValidation.EmailAcceptedIff | templates/validation.js:7-13 | The email pattern accepts exactly the strings with no whitespace and one `@`, a non-empty local part, and a domain with a dot that is neither first nor last. |
| RegistrationValidation.ValidateMobile | templates/validation.js:15-21 | Empty exactly for ten ASCII digits. |
| RegistrationValidation.ValidatePassword | templates/validation.js:23-39 | Empty exactly when the password has 8 or more code units plus an upper-case letter, a lower-case letter, a digit and a special character. Otherwise it gives the message of the first failing rule, in the source's order. |
| RegistrationValidation.ValidateConfirmPassword | templates/validation.js:41-46 | Empty exactly when the two passwords are equal. |
| RegistrationValidation.Strength | templates/validation.js:168-178 | The meter counts at most 5 criteria, and reaches 5 exactly when the password validator accepts. |
| RegistrationValidation.StrengthLabel | templates/validation.js:181-193 | The label is one of the four captions. The placeholder appears exactly for counts above 5, and "Strong" exactly for 5 among the counts 0 to 5. |
| RegistrationValidation.StrengthLabelOfPassword | templates/validation.js:179-193 | A typed password never shows the placeholder label. It is "Strong" exactly when the validator accepts and "Weak" exactly for 2 or fewer criteria. |
| RegistrationValidation.SendOtpStep | templates/validation.js:89-112 | A request is sent exactly when the trimmed number is ten digits, and it carries the trimmed number. |
| RegistrationValidation.VerifyOtpStep | templates/validation.js:114-123 | A verification request is sent exactly when the trimmed code has 6 code units. |
| RegistrationValidation.CheckForm | templates/validation.js:203-217 | All seven messages are empty exactly when the trimmed name, email and mobile pass their validators, the date check passes, the raw password passes, the confirmation equals it and the terms box is checked. Each field gets its own validator's message: name, email and mobile on the trimmed value, password and confirmation on the raw values, and the date check's message as given. |
| RegistrationValidation.Submit | templates/validation.js:196-256 | Registration is sent exactly when all seven checks pass and the number is verified. Name, email and mobile are trimmed, and date and password are sent raw. With every check passing and no verification, the submit stops at the verification prompt. A rejected submit shows exactly the messages `CheckForm` computes. |
| RegistrationValidation.RegisteredIsStrong | templates/validation.js:249-256 | A sent registration always has a password the meter labels "Strong" and a ten-digit mobile number. |
| SignupValidation.ValidateName | static/js/validation.js:1-5 | Same acceptance as the registration page's name validator. |
| SignupValidation.ValidateMobile | static/js/validation.js:8-14 | Empty exactly for ten ASCII digits. |
| SignupValidation.ValidatePassword | static/js/validation.js:17-33 | Same rules and order as the registration page. |
| SignupValidation.ValidatorsAgree | static/js/validation.js:1-33 | The sign-up page's validators return the same message as the registration page's copies (templates/validation.js lines 1-39) on every input. |
| SignupValidation.SendOtpStep | static/js/validation.js:46-69 | The raw number is checked and sent, without trimming. |
| SignupValidation.VerifyOtpStep | static/js/validation.js:72-79 | The raw code must have 6 code units. |
| SignupValidation.VerifyOtpTrimDiffers | static/js/validation.js:73-79 | Six digits with a space on each side fail this page's raw length check but pass the registration page's trimmed one (templates/validation.js lines 115-123). |
| SignupValidation.Submit | static/js/validation.js:103-121 | The form is sent exactly when the three validators accept the raw values and the number is verified. The body is the raw values. |
| LoginPage.PhoneAcceptedShape | static/js/vigil.js:284-287 | With whitespace deleted, the phone pattern accepts exactly an optional `+` followed by 1 to 16 digits whose first digit is not zero. |
| LoginPage.PhoneIgnoresWhitespace | static/js/vigil.js:284-287 | Inserting whitespace anywhere into a number does not change the verdict. |
| LoginPage.PhoneIgnoresTrim | static/js/vigil.js:91-93 | Trimming before validating, as the handlers do, does not change the verdict. |
| LoginPage.ValidatePhone | static/js/vigil.js:284-287 | An accepted number keeps 1 to 17 characters once whitespace is deleted, so a blank value is never accepted. |
| LoginPage.ValidateOtp | static/js/vigil.js:289-292 | A code is accepted exactly when it is all ASCII digits and 6 code units long. |
| LoginPage.OtpPatternPassesLengthChecks | static/js/vigil.js:289-292 | Every code the login page accepts also passes the registration and sign-up pages' six-code-unit checks (templates/validation.js lines 114-123). |
| LoginPage.LetterCodeOnlyPassesLengthChecks | static/js/vigil.js:289-292 | The converse fails: six lower-case letters pass both pages' length checks and fail the login page's pattern. |
| LoginPage.KinderIdError | static/js/vigil.js:162-168 | The Kinder-ID rule passes exactly for at least 3 code units. An empty ID gets the "required" message, and any other failure the "too short" message. |
| LoginPage.PasswordError | static/js/vigil.js:171-177 | The password rule passes exactly for at least 6 code units. An empty password gets the "required" message, and any other failure the "too short" message. |
| LoginPage.PhoneError | static/js/vigil.js:198-204 | The phone rule passes exactly when the phone pattern accepts. An empty number gets the "required" message, and any other failure the invalid-number message. |
| LoginPage.OtpError | static/js/vigil.js:207-213 | The OTP rule passes exactly when the OTP pattern accepts. An empty code gets the "required" message, and any other failure the invalid-code message. |
| LoginPage.KinderIdForm | static/js/vigil.js:150-183 | The login proceeds exactly when the trimmed Kinder ID has at least 3 code units and the raw password at least 6. A blank ID or an empty password gets the "required" message. Any other failing ID or password, including a password padded with spaces, gets the "too short" message. |
| LoginPage.PhoneForm | static/js/vigil.js:186-219 | The login proceeds exactly when the phone pattern accepts the number and the trimmed code is six digits. A blank field gets its "required" message. |
| LoginPage.ValidateField | static/js/vigil.js:237-282 | An unknown field is left untouched. Each known field is marked valid, with no message, exactly when its rule accepts the trimmed value. A blank value gets that field's own "required" message, and any other failure that field's second message. |
| LoginPage.FieldCheckAgreesWithForms | static/js/vigil.js:150-282 | For the Kinder ID, phone and OTP fields, and for a password without surrounding whitespace, the blur check and the form check accept the same values and show the same error message. |
| LoginPage.PasswordCheckedDifferently | static/js/vigil.js:238-260 | The password is trimmed on blur but not on submit (line 154), so a four-letter password padded with two spaces on each side is rejected on blur and accepted by the form. |
| LoginPage.TimerText | static/js/vigil.js:139-143 | The text has a colon three characters from the end and is four characters wide below ten minutes. |
| LoginPage.TimerTextReadsBack | static/js/vigil.js:139-143 | The timer text is minutes, a colon and two-digit seconds. The minutes have no leading zero and the seconds are below 60. Read back as numbers, minutes × 60 + seconds equals the time left. |
| LoginPage.TimerTextEnds | static/js/vigil.js:139-143 | The countdown displays "2:00" at the start (120 seconds, line 82) and "0:00" at the end. |
| LoginPage.GenerateOtp | static/js/vigil.js:90-116 | The countdown starts exactly when the phone pattern accepts the number. It starts at 120 seconds, showing "2:00", with the button disabled and the field marked "OTP sent successfully". Otherwise the field shows the invalid-number message. |
| LoginPage.Tick | static/js/vigil.js:126-136 | Each tick takes one second off, and the display follows the time left. The interval keeps running exactly while time is left, and while it runs the button is left as it was. When it stops, the button is re-enabled as "Resend OTP" and the display reads "0:00". |
| LoginPage.TicksCountDown | static/js/vigil.js:122-137 | From `k` seconds, `n` ticks leave `k - n` seconds with the timer running while `n < k`. From then on the timer is stopped at 0 with the button enabled. |
| LoginPage.CountdownLastsTwoMinutes | static/js/vigil.js:90-137 | After a valid click, the timer runs for exactly 120 ticks with the button disabled throughout, so no second code can be requested. It then stops at 0, re-enables the button and shows "0:00". |
| LoginPage.TicksWhileRunning | static/js/vigil.js:126-136 | Before the last second, `n` ticks leave the interval running with `n` seconds fewer and the button unchanged. |
| LoginPage.TicksAfterStop | static/js/vigil.js:126-136 | From the last second on, the interval is cleared at 0 with the button enabled. |
| Text.Trim | templates/validation.js:2 | `trim` removes exactly the leading and trailing ECMAScript whitespace. The result is empty exactly for blank strings and never longer than the input. |
| Text.TrimSurrounded | templates/validation.js:2 | Whitespace around a core with non-whitespace ends is removed exactly. |
| Text.Utf16Length | templates/validation.js:3 | `.length` is between the number of code points and twice that, and equals it for text in the Basic Multilingual Plane. |
| Text.TrimParts | templates/validation.js:2 | The input is the trimmed text with whitespace-only text before and after it, so `trim` keeps one contiguous slice. |
| Text.Lower | api/views.py:38 | Lower-casing keeps the length and maps each character on its own, shifting only `A` to `Z`. |
| Text.RemoveWhitespace | static/js/vigil.js:286 | `replace(/\s/g, '')` leaves no whitespace and is never longer. It leaves text without whitespace alone and empties whitespace-only text. |
| Text.NatToString | static/js/vigil.js:140-142 | Decimal digits without leading zeros whose value is the number. |

## Left out

- HTTP handling, the JSON request and response bodies, and the 400 and 405 error responses around the scorer are not modelled. The scorer takes the text directly.
- The device lookup and creation, the alert record's insertion and the call to the placeholder notification hook (api/views.py lines 18-20, which only logs) are not modelled. `CreatesAlert` states when they happen.
- `ChatScoring.Dedup`: keeps first occurrences, while Python's `set` order is unspecified. Only membership and the absence of duplicates are promised.
- Python's `str.lower` is modelled on ASCII letters only. Among non-ASCII characters, only U+212A (to `k`) and U+0130 (to `i` plus U+0307) lower to ASCII letters. No keyword contains `k`, and no keyword continues after an `i` with U+0307, so neither can create or destroy a keyword match.
- The dashboard's pagination and its ordering by timestamp are not modelled. The store is given already ordered, and ordering is the database's job.
- `__str__` methods, the ORM and persistence are display and storage only.
- The registration page's date-of-birth check reads the clock. Its message is a parameter of the submit gate.
- The strength meter's bar width and colours are presentation only. The label is modelled.
- The fetch calls behind the OTP buttons and the submit are foreign I/O. The model stops at the request they would send, and "is verified" is a parameter.
- The random OTP code generator, tab switching, password-visibility toggles, the simulated login animation and the clearing of a field's error on input are presentation or randomness.
- The one-second interval is modelled as the `Tick` function. Wall-clock time is not modelled.
- The timer element's text is not stored. `updateTimerDisplay` rewrites it from `timeLeft` on every change, so it is modelled as `Display`, a function of the countdown state.
- `RiskModels.SaveAlert`: states the effect of the `save` override only. On first insert Django's base `save` also stamps `timestamp` (`auto_now_add`, api/models.py line 27) and assigns the primary key. These come from the database and the clock, which are not modelled.
- `RiskModels.SaveMessage`: likewise, the `timestamp` stamp (`auto_now_add`, api/models.py line 55) and the primary key of the first insert are not modelled.
- Strings are sequences of Unicode scalar values, so lone surrogates cannot be represented. Python can receive them from `\ud800`-style JSON escapes, and JavaScript field values can hold them. No keyword, pattern or whitespace character involves one, so the modelled checks would treat one like any other non-whitespace, non-digit character.
- `ChatScoring.WhitespaceScoresZero`: the lemma quantifies over the ECMAScript whitespace set of `Text`, not Python's `str.isspace` set. The property holds for any text without letters, since every keyword contains letters, but only the ECMAScript set is stated.
- `LoginPage.Tick`: requires the countdown to be running with at least one second left. The interval is cleared on the tick that reaches zero, so no other state ever ticks.

=== FILE: chat_scoring.dfy ===
/** The keyword risk scorer of the chat-analysis endpoint, without the HTTP
    request, the JSON body and the device/alert store around it.

    The text is split on line feeds; each line is lower-cased and every
    keyword of the high-risk list (+5) and of the medium-risk list (+2) that
    occurs in it as a substring adds its weight once and records the
    original line. The recorded lines are deduplicated at the end. */
module ChatScoring {
  import opened Text

  const HighRiskKeywords: seq<string> := ["dont tell", "meet me", "come alone"]
  const MediumRiskKeywords: seq<string> :=
    ["send pic", "how old are you", "meet", "alone", "secret", "nudes"]

  const HighRiskWeight: nat := 5
  const MediumRiskWeight: nat := 2

  /** The endpoint stores an alert and calls its notification hook at this score. */
  const AlertThreshold: int := 7

  /** The largest contribution one line can make: every keyword matches. */
  const MaxLineScore: nat := 27

  // ---------------------------------------------------------------------
  // Lines: Python's `text.split('\n')`
  // ---------------------------------------------------------------------

  /** Split on every line feed; an empty text is one empty line, and a
      trailing line feed yields a trailing empty line. */
  function Split(s: string): (parts: seq<string>)
    ensures |parts| >= 1
  {
    if |s| == 0 then [""]
    else
      var rest := Split(s[1..]);
      if s[0] == '\n' then [""] + rest
      else [[s[0]] + rest[0]] + rest[1..]
  }

  /** One more line than line feeds, and no line holds a line feed. */
  lemma {:induction false} SplitShape(s: string)
    ensures |Split(s)| == Count(s, '\n') + 1
    ensures forall i :: 0 <= i < |Split(s)| ==> '\n' !in Split(s)[i]
    decreases |s|
  {
    if |s| > 0 {
      SplitShape(s[1..]);
    }
  }

  /** The inverse of `Split`: lines glued back with line feeds. */
  function Join(parts: seq<string>): string
    requires |parts| >= 1
  {
    if |parts| == 1 then parts[0] else parts[0] + "\n" + Join(parts[1..])
  }

  /** Splitting loses nothing: the lines joined back give the original text. */
  lemma {:induction false} JoinSplit(s: string)
    ensures Join(Split(s)) == s
    decreases |s|
  {
    if |s| > 0 {
      var rest := Split(s[1..]);
      JoinSplit(s[1..]);
      if s[0] == '\n' {
        assert Split(s) == [""] + rest;
        assert Split(s)[1..] == rest;
        assert s == "\n" + s[1..];
      } else {
        var parts := Split(s);
        assert parts[0] == [s[0]] + rest[0];
        assert parts[1..] == rest[1..];
        if |rest| == 1 {
          assert s == [s[0]] + s[1..];
        } else {
          assert Join(rest) == rest[0] + "\n" + Join(rest[1..]);
          assert s == [s[0]] + s[1..];
        }
      }
    }
  }

  /** Joining two texts with a line feed concatenates their lines. */
  lemma {:induction false} SplitAppend(a: string, b: string)
    ensures Split(a + "\n" + b) == Split(a) + Split(b)
    decreases |a|
  {
    if |a| == 0 {
      assert a + "\n" + b == "\n" + b;
      assert ("\n" + b)[1..] == b;
    } else {
      var t := a + "\n" + b;
      assert t[0] == a[0];
      assert t[1..] == a[1..] + "\n" + b;
      SplitAppend(a[1..], b);
    }
  }

  /** Every line lower-cased. */
  function LowerAll(lines: seq<string>): (r: seq<string>)
    ensures |r| == |lines| && forall i :: 0 <= i < |lines| ==> r[i] == Lower(lines[i])
  {
    seq(|lines|, i requires 0 <= i < |lines| => Lower(lines[i]))
  }

  /** Lower-casing never creates or removes a line feed, so it commutes with splitting. */
  lemma {:induction false} SplitCommutesLower(s: string)
    ensures Split(Lower(s)) == LowerAll(Split(s))
    decreases |s|
  {
    if |s| > 0 {
      var c, l := s[0], Lower(s);
      assert l[0] == LowerChar(c);
      assert l[1..] == Lower(s[1..]);
      SplitCommutesLower(s[1..]);
      var rest := Split(s[1..]);
      if c == '\n' {
        assert Split(l) == [""] + Split(l[1..]);
        LowerAllEmptyCons(rest);
      } else {
        assert LowerChar(c) != '\n';
        assert Split(l) == [[LowerChar(c)] + Split(l[1..])[0]] + Split(l[1..])[1..];
        LowerAllCons(c, rest);
      }
    }
  }

  lemma LowerAllEmptyCons(rest: seq<string>)
    ensures LowerAll([""] + rest) == [""] + LowerAll(rest)
  {
  }

  lemma LowerAllCons(c: char, rest: seq<string>)
    requires |rest| >= 1
    ensures LowerAll([[c] + rest[0]] + rest[1..])
         == [[LowerChar(c)] + LowerAll(rest)[0]] + LowerAll(rest)[1..]
  {
    assert Lower([c] + rest[0]) == [LowerChar(c)] + Lower(rest[0]);
  }

  // ---------------------------------------------------------------------
  // Keyword matching on one line
  // ---------------------------------------------------------------------

  /** How many of `keywords` occur in `lowered`; each keyword counts at most once. */
  function MatchCount(keywords: seq<string>, lowered: string): (n: nat)
    ensures n <= |keywords|
  {
    if |keywords| == 0 then 0
    else
      MatchCount(keywords[..|keywords| - 1], lowered)
        + (if Contains(lowered, keywords[|keywords| - 1]) then 1 else 0)
  }

  lemma {:induction false} MatchCountPositive(keywords: seq<string>, lowered: string)
    ensures (MatchCount(keywords, lowered) > 0) <==> (exists k :: k in keywords && Contains(lowered, k))
    decreases |keywords|
  {
    if |keywords| > 0 {
      var init := keywords[..|keywords| - 1];
      MatchCountPositive(init, lowered);
      assert keywords == init + [keywords[|keywords| - 1]];
      assert forall k :: k in keywords <==> k in init || k == keywords[|keywords| - 1];
    }
  }

  /** The weight one line adds to the score. */
  function LineScore(line: string): (n: nat)
    ensures n <= MaxLineScore
  {
    var lowered := Lower(line);
    HighRiskWeight * MatchCount(HighRiskKeywords, lowered)
      + MediumRiskWeight * MatchCount(MediumRiskKeywords, lowered)
  }

  /** How many times the line is appended to the flagged list: once per matching keyword. */
  function LineHits(line: string): nat
  {
    var lowered := Lower(line);
    MatchCount(HighRiskKeywords, lowered) + MatchCount(MediumRiskKeywords, lowered)
  }

  /** Some keyword of either list occurs in the lower-cased line. */
  predicate IsFlagged(line: string) {
    exists k :: k in HighRiskKeywords + MediumRiskKeywords && Contains(Lower(line), k)
  }

  lemma LineHitsFlagged(line: string)
    ensures LineHits(line) > 0 <==> IsFlagged(line)
    ensures LineScore(line) > 0 <==> IsFlagged(line)
  {
    MatchCountPositive(HighRiskKeywords, Lower(line));
    MatchCountPositive(MediumRiskKeywords, Lower(line));
  }

  /** Overlapping keywords stack: "meet me" contains "meet" and "come alone"
      contains "alone", so such a line alone reaches the alert threshold. */
  lemma OverlappingKeywordsStack(line: string)
    requires Contains(Lower(line), "meet me") || Contains(Lower(line), "come alone")
    ensures LineScore(line) >= 7
  {
    var lowered := Lower(line);
    if Contains(lowered, "meet me") {
      assert OccursAt("meet me", "meet", 0);
      ContainsTransitive(lowered, "meet me", "meet");
      assert "meet me" in HighRiskKeywords && "meet" in MediumRiskKeywords;
    } else {
      assert OccursAt("come alone", "alone", 5);
      ContainsTransitive(lowered, "come alone", "alone");
      assert "come alone" in HighRiskKeywords && "alone" in MediumRiskKeywords;
    }
    MatchCountPositive(HighRiskKeywords, lowered);
    MatchCountPositive(MediumRiskKeywords, lowered);
  }

  // ---------------------------------------------------------------------
  // Whole text
  // ---------------------------------------------------------------------

  /** Sum over lines and keywords of the weight of every matching keyword. */
  function TotalScore(lines: seq<string>): nat
  {
    if |lines| == 0 then 0
    else TotalScore(lines[..|lines| - 1]) + LineScore(lines[|lines| - 1])
  }

  function Repeat(x: string, n: nat): (r: seq<string>)
    ensures |r| == n && forall i :: 0 <= i < n ==> r[i] == x
    ensures forall y :: y in r <==> n > 0 && y == x
  {
    var r := seq(n, _ => x);
    assert n > 0 ==> r[0] == x;
    r
  }

  /** The flagged list before deduplication, in the order the loop appends. */
  function FlaggedList(lines: seq<string>): seq<string>
  {
    if |lines| == 0 then []
    else FlaggedList(lines[..|lines| - 1]) + Repeat(lines[|lines| - 1], LineHits(lines[|lines| - 1]))
  }

  predicate NoDuplicates(s: seq<string>) {
    forall i, j :: 0 <= i < j < |s| ==> s[i] != s[j]
  }

  /** Python's `list(set(xs))`; the order of a Python set is unspecified,
      this model keeps first occurrences. */
  function Dedup(s: seq<string>): (r: seq<string>)
    ensures NoDuplicates(r)
    ensures forall x :: x in r <==> x in s
  {
    if |s| == 0 then []
    else
      var r := Dedup(s[..|s| - 1]);
      var x := s[|s| - 1];
      assert forall y :: y in s <==> y in s[..|s| - 1] || y == x by {
        assert s == s[..|s| - 1] + [x];
      }
      if x in r then r else r + [x]
  }

  lemma {:induction false} TotalScoreAppend(xs: seq<string>, ys: seq<string>)
    ensures TotalScore(xs + ys) == TotalScore(xs) + TotalScore(ys)
    decreases |ys|
  {
    if |ys| > 0 {
      var zs := xs + ys;
      assert zs[..|zs| - 1] == xs + ys[..|ys| - 1];
      TotalScoreAppend(xs, ys[..|ys| - 1]);
    } else {
      assert xs + ys == xs;
    }
  }

  lemma {:induction false} FlaggedListMembers(lines: seq<string>)
    ensures forall l :: l in FlaggedList(lines) <==> l in lines && LineHits(l) > 0
    decreases |lines|
  {
    if |lines| > 0 {
      var init := lines[..|lines| - 1];
      var last := lines[|lines| - 1];
      FlaggedListMembers(init);
      assert lines == init + [last];
    }
  }

  lemma {:induction false} TotalScoreZero(lines: seq<string>)
    ensures TotalScore(lines) == 0 <==> FlaggedList(lines) == []
    decreases |lines|
  {
    if |lines| > 0 {
      var last := lines[|lines| - 1];
      TotalScoreZero(lines[..|lines| - 1]);
      LineHitsFlagged(last);
    }
  }

  /** A line of the text contributes its whole weight to the total. */
  lemma {:induction false} TotalScoreCoversLine(lines: seq<string>, i: nat)
    requires i < |lines|
    ensures TotalScore(lines) >= LineScore(lines[i])
    decreases |lines|
  {
    if i < |lines| - 1 {
      TotalScoreCoversLine(lines[..|lines| - 1], i);
    }
  }

  lemma {:induction false} TotalScoreBound(lines: seq<string>)
    ensures TotalScore(lines) <= MaxLineScore * |lines|
    decreases |lines|
  {
    if |lines| > 0 {
      TotalScoreBound(lines[..|lines| - 1]);
    }
  }

  // ---------------------------------------------------------------------
  // The endpoint's result
  // ---------------------------------------------------------------------

  /** The JSON body the endpoint answers with: `score` and `flagged_lines`. */
  datatype ChatAnalysis = ChatAnalysis(score: int, flaggedLines: seq<string>)

  function Analyze(text: string): (r: ChatAnalysis)
    ensures 0 <= r.score <= MaxLineScore * (Count(text, '\n') + 1)
    ensures forall l :: l in r.flaggedLines <==> l in Split(text) && IsFlagged(l)
    ensures NoDuplicates(r.flaggedLines)
    ensures r.score == 0 <==> r.flaggedLines == []
  {
    var lines := Split(text);
    SplitShape(text);
    FlaggedListMembers(lines);
    TotalScoreZero(lines);
    TotalScoreBound(lines);
    forall l ensures LineHits(l) > 0 <==> IsFlagged(l) { LineHitsFlagged(l); }
    ChatAnalysis(TotalScore(lines), Dedup(FlaggedList(lines)))
  }

  /** One inner loop of the endpoint: for each keyword that occurs in the
      lowered line, add `weight` and append the original line. */
  method ScanKeywords(line: string, lineLower: string, keywords: seq<string>, weight: nat)
    returns (added: nat, appended: seq<string>)
    ensures added == weight * MatchCount(keywords, lineLower)
    ensures appended == Repeat(line, MatchCount(keywords, lineLower))
  {
    added, appended := 0, [];
    var j := 0;
    while j < |keywords|
      invariant 0 <= j <= |keywords|
      invariant added == weight * MatchCount(keywords[..j], lineLower)
      invariant appended == Repeat(line, MatchCount(keywords[..j], lineLower))
    {
      assert keywords[..j + 1][..j] == keywords[..j];
      if Contains(lineLower, keywords[j]) {
        added := added + weight;
        appended := appended + [line];
      }
      j := j + 1;
    }
    assert keywords[..j] == keywords;
  }

  /** The endpoint's loop: for each line, both keyword lists in order, then
      the deduplication of the flagged lines. */
  method AnalyzeChat(text: string) returns (r: ChatAnalysis)
    ensures r == Analyze(text)
  {
    var lines := Split(text);
    var score := 0;
    var flagged: seq<string> := [];
    var i := 0;
    while i < |lines|
      invariant 0 <= i <= |lines|
      invariant score == TotalScore(lines[..i])
      invariant flagged == FlaggedList(lines[..i])
    {
      var line := lines[i];
      var lineLower := Lower(line);
      var high, highLines := ScanKeywords(line, lineLower, HighRiskKeywords, HighRiskWeight);
      var medium, mediumLines := ScanKeywords(line, lineLower, MediumRiskKeywords, MediumRiskWeight);
      score := score + high + medium;
      flagged := flagged + highLines + mediumLines;
      assert highLines + mediumLines == Repeat(line, LineHits(line));
      assert lines[..i + 1][..i] == lines[..i];
      i := i + 1;
    }
    assert lines[..i] == lines;
    r := ChatAnalysis(score, Dedup(flagged));
  }

  /** Whether the endpoint creates an alert record and calls the
      notification hook. The threshold is one high-risk hit plus one
      medium-risk hit. */
  predicate CreatesAlert(score: int): (r: bool)
    ensures r <==> score >= HighRiskWeight + MediumRiskWeight
  {
    score >= AlertThreshold
  }

  // ---------------------------------------------------------------------
  // Properties of the score
  // ---------------------------------------------------------------------

  /** The score is additive over lines. */
  lemma ScoreAdditive(a: string, b: string)
    ensures Analyze(a + "\n" + b).score == Analyze(a).score + Analyze(b).score
  {
    SplitAppend(a, b);
    TotalScoreAppend(Split(a), Split(b));
  }

  lemma {:induction false} TotalScoreLower(xs: seq<string>, ys: seq<string>)
    requires LowerAll(xs) == LowerAll(ys)
    ensures TotalScore(xs) == TotalScore(ys)
    decreases |xs|
  {
    if |xs| > 0 {
      var n := |xs|;
      assert Lower(xs[n - 1]) == LowerAll(xs)[n - 1] == LowerAll(ys)[n - 1] == Lower(ys[n - 1]);
      assert LowerAll(xs[..n - 1]) == LowerAll(xs)[..n - 1];
      assert LowerAll(ys[..n - 1]) == LowerAll(ys)[..n - 1];
      TotalScoreLower(xs[..n - 1], ys[..n - 1]);
    }
  }

  /** Matching ignores letter case: texts equal after lower-casing score the same. */
  lemma ScoreCaseInsensitive(a: string, b: string)
    requires Lower(a) == Lower(b)
    ensures Analyze(a).score == Analyze(b).score
  {
    SplitCommutesLower(a);
    SplitCommutesLower(b);
    TotalScoreLower(Split(a), Split(b));
  }

  /** A line containing "meet me" or "come alone", in any letter case, makes
      the whole text score at least 7, so the endpoint raises an alert. */
  lemma GroomingPhraseReachesThreshold(text: string, i: nat)
    requires i < |Split(text)|
    requires Contains(Lower(Split(text)[i]), "meet me") || Contains(Lower(Split(text)[i]), "come alone")
    ensures CreatesAlert(Analyze(text).score)
  {
    OverlappingKeywordsStack(Split(text)[i]);
    TotalScoreCoversLine(Split(text), i);
  }

  /** Text made only of whitespace matches nothing: every keyword starts with a letter. */
  lemma WhitespaceScoresZero(text: string)
    requires AllWhitespace(text)
    ensures Analyze(text) == ChatAnalysis(0, [])
  {
    var lines := Split(text);
    forall i | 0 <= i < |lines| ensures LineScore(lines[i]) == 0 {
      SplitWhitespace(text, i);
      WhitespaceLineScoresZero(lines[i]);
    }
    TotalScoreZeroIff(lines);
  }

  lemma WhitespaceLineScoresZero(l: string)
    requires AllWhitespace(l)
    ensures LineScore(l) == 0
  {
    assert Lower(l) == l;
    forall k | k in HighRiskKeywords + MediumRiskKeywords ensures !Contains(l, k) {
      if Contains(l, k) {
        ContainsFirstChar(l, k);
        assert false;
      }
    }
    LineHitsFlagged(l);
  }

  lemma {:induction false} TotalScoreZeroIff(lines: seq<string>)
    ensures TotalScore(lines) == 0 <==> forall i :: 0 <= i < |lines| ==> LineScore(lines[i]) == 0
    decreases |lines|
  {
    if |lines| > 0 {
      var init := lines[..|lines| - 1];
      TotalScoreZeroIff(init);
      assert forall i :: 0 <= i < |init| ==> init[i] == lines[i];
    }
  }

  lemma {:induction false} SplitWhitespace(text: string, j: nat)
    requires AllWhitespace(text) && j < |Split(text)|
    ensures AllWhitespace(Split(text)[j])
    decreases |text|
  {
    if |text| > 0 {
      var rest := Split(text[1..]);
      if text[0] == '\n' {
        if j > 0 { SplitWhitespace(text[1..], j - 1); }
      } else if j == 0 {
        SplitWhitespace(text[1..], 0);
        assert Split(text)[0] == [text[0]] + rest[0];
      } else {
        SplitWhitespace(text[1..], j);
      }
    }
  }

  /** Only "meet me" and "meet" can occur in a lower-case line built from
      the letters of "meet me": every other keyword starts with another letter. */
  lemma MeetMeLineScore(line: string)
    requires forall i :: 0 <= i < |line| ==> line[i] == 'm' || line[i] == 'e' || line[i] == 't' || line[i] == ' '
    requires Contains(line, "meet me")
    ensures LineScore(line) == 7
  {
    assert Lower(line) == line;
    assert OccursAt("meet me", "meet", 0);
    ContainsTransitive(line, "meet me", "meet");
    forall k | k in HighRiskKeywords + MediumRiskKeywords && k != "meet me" && k != "meet"
      ensures !Contains(line, k)
    {
      if Contains(line, k) {
        ContainsFirstChar(line, k);
        assert false;
      }
    }
    var h, m := HighRiskKeywords, MediumRiskKeywords;
    assert h[1] == "meet me" && m[2] == "meet";
    forall i | 0 <= i < |h| ensures Contains(line, h[i]) <==> i == 1 {
      assert h[i] in HighRiskKeywords + MediumRiskKeywords;
    }
    forall i | 0 <= i < |m| ensures Contains(line, m[i]) <==> i == 2 {
      assert m[i] in HighRiskKeywords + MediumRiskKeywords;
    }
    MatchCountSingle(h, line, 1);
    MatchCountSingle(m, line, 2);
  }

  /** A list of which exactly one entry occurs counts one match. */
  lemma {:induction false} MatchCountSingle(keywords: seq<string>, lowered: string, j: nat)
    requires j < |keywords|
    requires forall i :: 0 <= i < |keywords| ==> (Contains(lowered, keywords[i]) <==> i == j)
    ensures MatchCount(keywords, lowered) == 1
    decreases |keywords|
  {
    var init := keywords[..|keywords| - 1];
    if j == |keywords| - 1 {
      forall k | k in init ensures !Contains(lowered, k) {
        var i :| 0 <= i < |init| && init[i] == k;
        assert keywords[i] == k;
      }
      MatchCountPositive(init, lowered);
    } else {
      assert forall i :: 0 <= i < |init| ==> init[i] == keywords[i];
      MatchCountSingle(init, lowered, j);
    }
  }

  /** A text without line feeds is scored as a single line. */
  lemma SingleLineScore(line: string)
    requires '\n' !in line
    ensures Analyze(line).score == LineScore(line)
  {
    SplitNoNewline(line);
    var lines := Split(line);
    assert lines[..0] == [] && lines[0] == line;
    assert TotalScore(lines) == TotalScore(lines[..0]) + LineScore(line);
  }

  /** Repeating "meet me" on its line adds nothing: the repeated line holds
      the same keywords, "meet me" and "meet", as the single phrase. */
  lemma RepeatedPhraseCountsOnce()
    ensures Analyze("meet me meet me").score == Analyze("meet me").score == 7
  {
    SingleLineScore("meet me");
    SingleLineScore("meet me meet me");
    MeetMeLinesScoreSeven();
  }

  lemma MeetMeLinesScoreSeven()
    ensures LineScore("meet me") == LineScore("meet me meet me") == 7
  {
    assert OccursAt("meet me", "meet me", 0);
    MeetMeLineScore("meet me");
    assert OccursAt("meet me meet me", "meet me", 0);
    MeetMeLineScore("meet me meet me");
  }

  /** A list's count depends only on which of its keywords occur. */
  lemma {:induction false} MatchCountSameHits(keywords: seq<string>, x: string, y: string)
    requires forall i :: 0 <= i < |keywords| ==> (Contains(x, keywords[i]) <==> Contains(y, keywords[i]))
    ensures MatchCount(keywords, x) == MatchCount(keywords, y)
    decreases |keywords|
  {
    if |keywords| > 0 {
      var init := keywords[..|keywords| - 1];
      assert forall i :: 0 <= i < |init| ==> init[i] == keywords[i];
      MatchCountSameHits(init, x, y);
    }
  }

  /** Matching is by presence: two lines that contain the same keywords once
      lower-cased score the same and are appended equally often, however
      many times each keyword occurs. */
  lemma SameKeywordsSameScore(a: string, b: string)
    requires forall k :: k in HighRiskKeywords + MediumRiskKeywords ==>
               (Contains(Lower(a), k) <==> Contains(Lower(b), k))
    ensures LineScore(a) == LineScore(b)
    ensures LineHits(a) == LineHits(b)
  {
    var h, m := HighRiskKeywords, MediumRiskKeywords;
    forall i | 0 <= i < |h| ensures Contains(Lower(a), h[i]) <==> Contains(Lower(b), h[i]) {
      assert h[i] in h + m;
    }
    forall i | 0 <= i < |m| ensures Contains(Lower(a), m[i]) <==> Contains(Lower(b), m[i]) {
      assert m[i] in h + m;
    }
    MatchCountSameHits(h, Lower(a), Lower(b));
    MatchCountSameHits(m, Lower(a), Lower(b));
  }

  /** Of the keywords, only "meet" can occur in a lower-case line built from
      the letters of "meet me" that does not contain "meet me" itself. */
  lemma MeetLineScore(line: string)
    requires forall i :: 0 <= i < |line| ==> line[i] == 'm' || line[i] == 'e' || line[i] == 't' || line[i] == ' '
    requires Contains(line, "meet") && !Contains(line, "meet me")
    ensures LineScore(line) == 2
  {
    assert Lower(line) == line;
    forall k | k in HighRiskKeywords + MediumRiskKeywords && k != "meet me" && k != "meet"
      ensures !Contains(line, k)
    {
      if Contains(line, k) {
        ContainsFirstChar(line, k);
        assert false;
      }
    }
    var h, m := HighRiskKeywords, MediumRiskKeywords;
    assert m[2] == "meet";
    forall k | k in h ensures !Contains(line, k) {
      assert k in h + m;
    }
    MatchCountPositive(h, line);
    forall i | 0 <= i < |m| ensures Contains(line, m[i]) <==> i == 2 {
      assert m[i] in h + m;
    }
    MatchCountSingle(m, line, 2);
  }

  /** Repetition can change the score all the same: "meet" scores 2, while
      "meet meet" also contains "meet me" and scores 7. */
  lemma RepetitionCanRaiseScore()
    ensures Analyze("meet").score == 2 && Analyze("meet meet").score == 7
  {
    SingleLineScore("meet");
    SingleLineScore("meet meet");
    MeetWordScores();
  }

  lemma MeetWordScores()
    ensures LineScore("meet") == 2 && LineScore("meet meet") == 7
  {
    assert OccursAt("meet", "meet", 0);
    assert !Contains("meet", "meet me");
    MeetLineScore("meet");
    assert OccursAt("meet meet", "meet me", 0);
    MeetMeLineScore("meet meet");
  }

  lemma SplitNoNewline(s: string)
    requires '\n' !in s
    ensures Split(s) == [s]
  {
    assert Count(s, '\n') == 0;
    JoinSplit(s);
  }

  lemma EmptyTextScoresZero()
    ensures Analyze("") == ChatAnalysis(0, [])
  {
    WhitespaceScoresZero("");
  }
}

=== FILE: dashboard.dfy ===
/** The parent dashboard's score bands and the alert decision of the chat
    endpoint, related to the tiers of the alert record. The store is a
    sequence of alerts already in newest-first order; pagination is not
    modelled. */
module Dashboard {
  import opened RiskModels
  import ChatScoring
  import Text

  /** The `risk` query parameter; any value other than the three bands,
      including the default "all", leaves the list unfiltered. */
  datatype RiskFilter = AllRisks | HighBand | MediumBand | LowBand

  function ParseRiskFilter(param: string): (f: RiskFilter)
    ensures f == HighBand <==> param == "high"
    ensures f == MediumBand <==> param == "medium"
    ensures f == LowBand <==> param == "low"
  {
    if param == "high" then HighBand
    else if param == "medium" then MediumBand
    else if param == "low" then LowBand
    else AllRisks
  }

  /** The score condition each filter applies. */
  predicate InBand(f: RiskFilter, score: int)
  {
    match f
    case AllRisks => true
    case HighBand => score >= 7
    case MediumBand => 4 <= score < 7
    case LowBand => score < 4
  }

  /** The alerts passing a filter, in their original order. */
  function FilterAlerts(alerts: seq<Alert>, f: RiskFilter): (r: seq<Alert>)
    ensures |r| <= |alerts|
    ensures forall a :: a in r <==> a in alerts && InBand(f, a.score)
    ensures (forall i :: 0 <= i < |alerts| ==> !InBand(f, alerts[i].score)) ==> r == []
  {
    if |alerts| == 0 then []
    else
      var init := FilterAlerts(alerts[..|alerts| - 1], f);
      var last := alerts[|alerts| - 1];
      assert forall a :: a in alerts <==> a in alerts[..|alerts| - 1] || a == last by {
        assert alerts == alerts[..|alerts| - 1] + [last];
      }
      if InBand(f, last.score) then init + [last] else init
  }

  /** Filtering distributes over concatenation. With `FilterAlertsSingle`
      this fixes the result as the alerts of the band in their original
      order, each as often as it is stored. */
  lemma {:induction false} FilterAlertsAppend(xs: seq<Alert>, ys: seq<Alert>, f: RiskFilter)
    ensures FilterAlerts(xs + ys, f) == FilterAlerts(xs, f) + FilterAlerts(ys, f)
    decreases |ys|
  {
    if |ys| == 0 {
      assert xs + ys == xs;
    } else {
      var init := ys[..|ys| - 1];
      var last := ys[|ys| - 1];
      assert ys == init + [last];
      assert xs + ys == (xs + init) + [last];
      FilterAlertsAppend(xs, init, f);
      FilterAlertsSnoc(xs + init, last, f);
      FilterAlertsSnoc(init, last, f);
      Text.ConcatAssoc(FilterAlerts(xs, f), FilterAlerts(init, f), if InBand(f, last.score) then [last] else []);
    }
  }

  lemma FilterAlertsSnoc(alerts: seq<Alert>, last: Alert, f: RiskFilter)
    ensures FilterAlerts(alerts + [last], f)
            == FilterAlerts(alerts, f) + (if InBand(f, last.score) then [last] else [])
  {
    var whole := alerts + [last];
    assert whole[..|whole| - 1] == alerts;
  }

  /** A single alert is kept exactly when its score is in the band. */
  lemma FilterAlertsSingle(a: Alert, f: RiskFilter)
    ensures FilterAlerts([a], f) == (if InBand(f, a.score) then [a] else [])
  {
    assert [a][..0] == [];
  }

  /** What the dashboard renders: the filtered list and the critical alerts. */
  datatype DashboardView = DashboardView(listed: seq<Alert>, critical: seq<Alert>, riskFilter: string)

  /** The critical list is drawn from the already filtered list. */
  function Render(alerts: seq<Alert>, param: string): (v: DashboardView)
    ensures forall a :: a in v.listed <==> a in alerts && InBand(ParseRiskFilter(param), a.score)
    ensures forall a :: a in v.critical <==> a in v.listed && a.score >= 7
    ensures v.riskFilter == param
  {
    var listed := FilterAlerts(alerts, ParseRiskFilter(param));
    DashboardView(listed, FilterAlerts(listed, HighBand), param)
  }

  // ---------------------------------------------------------------------
  // Properties
  // ---------------------------------------------------------------------

  /** The three bands partition the integers. */
  lemma BandsPartition(score: int)
    ensures InBand(HighBand, score) || InBand(MediumBand, score) || InBand(LowBand, score)
    ensures !(InBand(HighBand, score) && InBand(MediumBand, score))
    ensures !(InBand(HighBand, score) && InBand(LowBand, score))
    ensures !(InBand(MediumBand, score) && InBand(LowBand, score))
  {
  }

  /** Every alert lands in exactly one of the three filtered lists. */
  lemma {:induction false} BandSizesAdd(alerts: seq<Alert>)
    ensures |FilterAlerts(alerts, HighBand)| + |FilterAlerts(alerts, MediumBand)|
            + |FilterAlerts(alerts, LowBand)| == |alerts|
    decreases |alerts|
  {
    if |alerts| > 0 {
      BandSizesAdd(alerts[..|alerts| - 1]);
    }
  }

  /** The high and medium bands are exactly the high and medium tiers; the
      low band holds both the low and the safe tier. */
  lemma BandsMatchTiers(a: Alert)
    ensures InBand(HighBand, a.score) <==> AlertRiskLevel(a) == High
    ensures InBand(MediumBand, a.score) <==> AlertRiskLevel(a) == Medium
    ensures InBand(LowBand, a.score) <==> AlertRiskLevel(a) == Low || AlertRiskLevel(a) == Safe
  {
  }

  /** With the medium or low filter the critical list is always empty; with
      the high filter or none it holds every high-scoring alert. */
  lemma CriticalFollowsFilter(alerts: seq<Alert>, param: string)
    ensures param == "medium" || param == "low" ==> Render(alerts, param).critical == []
    ensures param != "medium" && param != "low" ==>
              forall a :: a in Render(alerts, param).critical <==> a in alerts && a.score >= 7
  {
    var v := Render(alerts, param);
    if param == "medium" || param == "low" {
      forall i | 0 <= i < |v.listed| ensures !InBand(HighBand, v.listed[i].score) {
        assert v.listed[i] in v.listed;
      }
    }
  }

  /** The endpoint alerts exactly on the scores the records classify as high. */
  lemma AlertIffHighTier(a: Alert)
    ensures ChatScoring.CreatesAlert(a.score) <==> AlertRiskLevel(a) == High
  {
  }
}

=== FILE: login_page.dfy ===
/** The child login page's client-side logic: the phone and OTP patterns,
    the Kinder-ID and phone form checks, the per-field check run when a field
    loses focus, and the OTP countdown with its `m:ss` display. Showing an
    error or a success mark on a field is modelled as the field's resulting
    state; the one-second interval is modelled as a tick function. */
module LoginPage {
  import opened Text
  import RegistrationValidation
  import SignupValidation

  const KinderIdRequired := "Kinder ID is required"
  const KinderIdTooShort := "Kinder ID must be at least 3 characters"
  const PasswordRequired := "Password is required"
  const PasswordTooShort := "Password must be at least 6 characters"
  const PhoneRequired := "Phone number is required"
  const PhoneInvalid := "Please enter a valid phone number"
  const OtpRequired := "OTP is required"
  const OtpInvalid := "Please enter a valid 6-digit OTP"

  const MinKinderIdLength := 3
  const MinPasswordLength := 6

  // ---------------------------------------------------------------------
  // Patterns
  // ---------------------------------------------------------------------

  /** `^[\+]?[1-9][\d]{0,15}$`, written as its two alternatives: without and
      with the leading plus sign. */
  predicate MatchesPhonePattern(s: string) {
    || (1 <= |s| <= 16 && '1' <= s[0] <= '9' && AllDigits(s[1..]))
    || (2 <= |s| <= 17 && s[0] == '+' && '1' <= s[1] <= '9' && AllDigits(s[2..]))
  }

  /** The number without its optional leading plus sign. */
  function Unsigned(s: string): string {
    if |s| > 0 && s[0] == '+' then s[1..] else s
  }

  /** Whitespace anywhere is deleted before the pattern is applied; an
      accepted number keeps 1 to 17 characters, so an empty or blank value
      is never accepted. */
  function ValidatePhone(phone: string): (r: bool)
    ensures r ==> 1 <= |RemoveWhitespace(phone)| <= 17 && !AllWhitespace(phone)
  {
    MatchesPhonePattern(RemoveWhitespace(phone))
  }

  /** Accepted are exactly 1 to 16 digits, the first non-zero, after an
      optional plus sign, once whitespace is deleted. */
  lemma PhoneAcceptedShape(phone: string)
    ensures ValidatePhone(phone) <==>
              var d := Unsigned(RemoveWhitespace(phone));
              1 <= |d| <= 16 && AllDigits(d) && d[0] != '0'
  {
    var s := RemoveWhitespace(phone);
    if |s| > 0 && s[0] != '+' && AllDigits(s) {
      assert AllDigits(s[1..]);
    }
    if 2 <= |s| && s[0] == '+' && AllDigits(s[1..]) {
      assert s[2..] == s[1..][1..];
    }
  }

  lemma StripWhitespace(a: string, w: string, b: string)
    requires AllWhitespace(w)
    ensures RemoveWhitespace(a + w + b) == RemoveWhitespace(a + b)
  {
    RemoveWhitespaceAppend(a + w, b);
    RemoveWhitespaceAppend(a, w);
    RemoveWhitespaceAppend(a, b);
    assert RemoveWhitespace(w) == [];
    assert RemoveWhitespace(a) + [] == RemoveWhitespace(a);
  }

  /** Inserting or removing whitespace anywhere does not change the verdict. */
  lemma PhoneIgnoresWhitespace(a: string, w: string, b: string)
    requires AllWhitespace(w)
    ensures ValidatePhone(a + w + b) == ValidatePhone(a + b)
  {
    StripWhitespace(a, w, b);
  }

  /** Trimming the number first, as the handlers do, changes nothing. */
  lemma PhoneIgnoresTrim(phone: string)
    ensures ValidatePhone(Trim(phone)) == ValidatePhone(phone)
  {
    TrimKeepsStripped(phone);
  }

  lemma TrimKeepsStripped(s: string)
    ensures RemoveWhitespace(Trim(s)) == RemoveWhitespace(s)
  {
    var pre, post := TrimParts(s);
    StrippedTrim(s, pre, Trim(s), post);
  }

  lemma StrippedTrim(s: string, pre: string, core: string, post: string)
    requires s == pre + core + post
    requires AllWhitespace(pre) && AllWhitespace(post)
    ensures RemoveWhitespace(s) == RemoveWhitespace(core)
  {
    RemoveWhitespaceAppend(pre + core, post);
    RemoveWhitespaceAppend(pre, core);
    assert RemoveWhitespace(pre) == [] && RemoveWhitespace(post) == [];
    assert [] + RemoveWhitespace(core) + [] == RemoveWhitespace(core);
  }

  /** `^\d{6}$`: exactly six ASCII digits, which are six code units. */
  function ValidateOtp(otp: string): (r: bool)
    ensures r <==> AllDigits(otp) && Utf16Length(otp) == 6
  {
    assert AllDigits(otp) ==> forall i :: 0 <= i < |otp| ==> IsBmp(otp[i]);
    |otp| == 6 && AllDigits(otp)
  }

  /** The login page's OTP pattern is stricter than the registration pages'
      length checks: every code it accepts passes both of them. */
  lemma OtpPatternPassesLengthChecks(otp: string)
    requires ValidateOtp(otp)
    ensures RegistrationValidation.VerifyOtpStep("", otp).SendRequest?
    ensures SignupValidation.VerifyOtpStep("", otp).SendRequest?
  {
    assert NoWhitespace(otp);
  }

  /** The converse fails: six letters pass both length checks but not the
      pattern. */
  lemma LetterCodeOnlyPassesLengthChecks(letters: string)
    requires |letters| == 6 && forall i :: 0 <= i < |letters| ==> IsLower(letters[i])
    ensures !ValidateOtp(letters)
    ensures RegistrationValidation.VerifyOtpStep("", letters).SendRequest?
    ensures SignupValidation.VerifyOtpStep("", letters).SendRequest?
  {
    assert !IsDigit(letters[0]);
    assert NoWhitespace(letters);
    assert forall i :: 0 <= i < |letters| ==> IsBmp(letters[i]);
  }

  // ---------------------------------------------------------------------
  // Field states
  // ---------------------------------------------------------------------

  /** What a check leaves on a field: untouched, cleared of earlier marks,
      marked with an error message, or marked valid with a message. */
  datatype FieldState = Unchanged | Cleared | Invalid(message: string) | Valid(message: string)

  /** The outcome of submitting a form: the state of both fields and whether
      the login proceeds. */
  datatype LoginCheck = LoginCheck(first: FieldState, second: FieldState, proceeds: bool)

  /** The Kinder-ID rule; the empty message means the value passes. */
  function KinderIdError(id: string): (r: string)
    ensures r == "" <==> Utf16Length(id) >= MinKinderIdLength
    ensures r == KinderIdRequired <==> id == []
    ensures r == KinderIdTooShort <==> id != [] && Utf16Length(id) < MinKinderIdLength
    ensures r != "" ==> r == KinderIdRequired || r == KinderIdTooShort
  {
    Utf16LengthZero(id);
    if id == [] then KinderIdRequired
    else if Utf16Length(id) < MinKinderIdLength then KinderIdTooShort
    else ""
  }

  /** The password rule. */
  function PasswordError(password: string): (r: string)
    ensures r == "" <==> Utf16Length(password) >= MinPasswordLength
    ensures r == PasswordRequired <==> password == []
    ensures r == PasswordTooShort <==> password != [] && Utf16Length(password) < MinPasswordLength
    ensures r != "" ==> r == PasswordRequired || r == PasswordTooShort
  {
    Utf16LengthZero(password);
    if password == [] then PasswordRequired
    else if Utf16Length(password) < MinPasswordLength then PasswordTooShort
    else ""
  }

  /** The phone rule. */
  function PhoneError(phone: string): (r: string)
    ensures r == "" <==> ValidatePhone(phone)
    ensures r == PhoneRequired <==> phone == []
    ensures r == PhoneInvalid <==> phone != [] && !ValidatePhone(phone)
    ensures r != "" ==> r == PhoneRequired || r == PhoneInvalid
  {
    if phone == [] then PhoneRequired
    else if !ValidatePhone(phone) then PhoneInvalid
    else ""
  }

  /** The OTP rule. */
  function OtpError(otp: string): (r: string)
    ensures r == "" <==> ValidateOtp(otp)
    ensures r == OtpRequired <==> otp == []
    ensures r == OtpInvalid <==> otp != [] && !ValidateOtp(otp)
    ensures r != "" ==> r == OtpRequired || r == OtpInvalid
  {
    if otp == [] then OtpRequired
    else if !ValidateOtp(otp) then OtpInvalid
    else ""
  }

  /** On submit, every error is cleared first and only failing fields are marked. */
  function Marked(error: string): FieldState {
    if error == "" then Cleared else Invalid(error)
  }

  /** The Kinder-ID form: the identifier is trimmed, the password is not. */
  function KinderIdForm(kinderId: string, password: string): (r: LoginCheck)
    ensures r.proceeds <==> Utf16Length(Trim(kinderId)) >= 3 && Utf16Length(password) >= 6
    ensures AllWhitespace(kinderId) ==> r.first == Invalid(KinderIdRequired)
    ensures password == [] ==> r.second == Invalid(PasswordRequired)
    ensures password != [] && Utf16Length(password) < MinPasswordLength ==> r.second == Invalid(PasswordTooShort)
    ensures !AllWhitespace(kinderId) && Utf16Length(Trim(kinderId)) < MinKinderIdLength ==> r.first == Invalid(KinderIdTooShort)
    ensures r.proceeds ==> r.first == Cleared && r.second == Cleared
  {
    var first := Marked(KinderIdError(Trim(kinderId)));
    var second := Marked(PasswordError(password));
    LoginCheck(first, second, first == Cleared && second == Cleared)
  }

  /** The phone form: both fields are trimmed. */
  function PhoneForm(phone: string, otp: string): (r: LoginCheck)
    ensures r.proceeds <==> ValidatePhone(phone) && ValidateOtp(Trim(otp))
    ensures AllWhitespace(phone) ==> r.first == Invalid(PhoneRequired)
    ensures AllWhitespace(otp) ==> r.second == Invalid(OtpRequired)
  {
    var first := Marked(PhoneError(Trim(phone)));
    var second := Marked(OtpError(Trim(otp)));
    PhoneIgnoresTrim(phone);
    LoginCheck(first, second, first == Cleared && second == Cleared)
  }

  /** On losing focus a passing field is marked valid with no message. */
  function Checked(error: string): FieldState {
    if error == "" then Valid("") else Invalid(error)
  }

  /** The check run when a field loses focus: the value is trimmed, the field
      identifier picks the rule, and an unknown identifier is left alone. */
  function ValidateField(fieldId: string, value: string): (r: FieldState)
    ensures fieldId !in {"kinder-id", "login-password", "login-phone", "otp"} ==> r == Unchanged
    ensures fieldId == "kinder-id" ==> (r.Valid? <==> Utf16Length(Trim(value)) >= 3)
    ensures fieldId == "login-password" ==> (r.Valid? <==> Utf16Length(Trim(value)) >= 6)
    ensures fieldId == "login-phone" ==> (r.Valid? <==> ValidatePhone(value))
    ensures fieldId == "otp" ==> (r.Valid? <==> ValidateOtp(Trim(value)))
    ensures fieldId == "kinder-id" && AllWhitespace(value) ==> r == Invalid(KinderIdRequired)
    ensures fieldId == "login-password" && AllWhitespace(value) ==> r == Invalid(PasswordRequired)
    ensures fieldId == "login-phone" && AllWhitespace(value) ==> r == Invalid(PhoneRequired)
    ensures fieldId == "otp" && AllWhitespace(value) ==> r == Invalid(OtpRequired)
    ensures fieldId == "kinder-id" && !AllWhitespace(value) && !r.Valid? ==> r == Invalid(KinderIdTooShort)
    ensures fieldId == "login-password" && !AllWhitespace(value) && !r.Valid? ==> r == Invalid(PasswordTooShort)
    ensures fieldId == "login-phone" && !AllWhitespace(value) && !r.Valid? ==> r == Invalid(PhoneInvalid)
    ensures fieldId == "otp" && !AllWhitespace(value) && !r.Valid? ==> r == Invalid(OtpInvalid)
    ensures r.Valid? ==> r.message == ""
  {
    var v := Trim(value);
    PhoneIgnoresTrim(value);
    if fieldId == "kinder-id" then Checked(KinderIdError(v))
    else if fieldId == "login-password" then Checked(PasswordError(v))
    else if fieldId == "login-phone" then Checked(PhoneError(v))
    else if fieldId == "otp" then Checked(OtpError(v))
    else Unchanged
  }

  /** On losing focus and on submit the same message is shown for the
      Kinder ID, the phone number and the OTP, and for a password without
      surrounding whitespace. */
  lemma FieldCheckAgreesWithForms(kinderId: string, password: string, phone: string, otp: string)
    ensures ValidateField("kinder-id", kinderId).Valid? <==> KinderIdForm(kinderId, password).first == Cleared
    ensures KinderIdForm(kinderId, password).first.Invalid? ==>
              ValidateField("kinder-id", kinderId) == KinderIdForm(kinderId, password).first
    ensures ValidateField("login-phone", phone).Valid? <==> PhoneForm(phone, otp).first == Cleared
    ensures PhoneForm(phone, otp).first.Invalid? ==>
              ValidateField("login-phone", phone) == PhoneForm(phone, otp).first
    ensures ValidateField("otp", otp).Valid? <==> PhoneForm(phone, otp).second == Cleared
    ensures PhoneForm(phone, otp).second.Invalid? ==>
              ValidateField("otp", otp) == PhoneForm(phone, otp).second
    ensures Trim(password) == password ==>
              (ValidateField("login-password", password).Valid? <==> KinderIdForm(kinderId, password).second == Cleared)
    ensures Trim(password) == password && KinderIdForm(kinderId, password).second.Invalid? ==>
              ValidateField("login-password", password) == KinderIdForm(kinderId, password).second
  {
    KinderIdCheckAgrees(kinderId, password);
    PasswordCheckAgrees(kinderId, password);
    PhoneCheckAgrees(phone, otp);
    OtpCheckAgrees(phone, otp);
  }

  lemma KinderIdCheckAgrees(kinderId: string, password: string)
    ensures ValidateField("kinder-id", kinderId).Valid? <==> KinderIdForm(kinderId, password).first == Cleared
    ensures KinderIdForm(kinderId, password).first.Invalid? ==>
              ValidateField("kinder-id", kinderId) == KinderIdForm(kinderId, password).first
  {
  }

  lemma PasswordCheckAgrees(kinderId: string, password: string)
    ensures Trim(password) == password ==>
              (ValidateField("login-password", password).Valid? <==> KinderIdForm(kinderId, password).second == Cleared)
    ensures Trim(password) == password && KinderIdForm(kinderId, password).second.Invalid? ==>
              ValidateField("login-password", password) == KinderIdForm(kinderId, password).second
  {
  }

  lemma PhoneCheckAgrees(phone: string, otp: string)
    ensures ValidateField("login-phone", phone).Valid? <==> PhoneForm(phone, otp).first == Cleared
    ensures PhoneForm(phone, otp).first.Invalid? ==>
              ValidateField("login-phone", phone) == PhoneForm(phone, otp).first
  {
  }

  lemma OtpCheckAgrees(phone: string, otp: string)
    ensures ValidateField("otp", otp).Valid? <==> PhoneForm(phone, otp).second == Cleared
    ensures PhoneForm(phone, otp).second.Invalid? ==>
              ValidateField("otp", otp) == PhoneForm(phone, otp).second
  {
  }

  /** The password is trimmed on losing focus but not on submit, so the two
      disagree on a short password padded with spaces. */
  lemma PasswordCheckedDifferently(core: string)
    requires |core| == 4 && forall i :: 0 <= i < |core| ==> IsLower(core[i])
    ensures ValidateField("login-password", "  " + core + "  ") == Invalid(PasswordTooShort)
    ensures KinderIdForm("abc", "  " + core + "  ").second == Cleared
  {
    var padded := "  " + core + "  ";
    TrimSurrounded("  ", core, "  ");
    assert forall i :: 0 <= i < |padded| ==> IsBmp(padded[i]);
    assert forall i :: 0 <= i < |core| ==> IsBmp(core[i]);
  }

  // ---------------------------------------------------------------------
  // OTP countdown
  // ---------------------------------------------------------------------

  /** `n.toString().padStart(2, '0')` for the seconds. */
  function PadTwo(t: string): (r: string)
    ensures |t| <= 2 ==> |r| == 2
  {
    if |t| == 0 then "00" else if |t| == 1 then ['0'] + t else t
  }

  lemma {:induction false} LeadingZeroValue(t: string)
    requires AllDigits(t)
    ensures AllDigits(['0'] + t) && DigitsValue(['0'] + t) == DigitsValue(t)
    decreases |t|
  {
    if |t| > 0 {
      var z := ['0'] + t;
      assert z[..|z| - 1] == ['0'] + t[..|t| - 1];
      LeadingZeroValue(t[..|t| - 1]);
    }
  }

  /** Padding keeps the digits' value. */
  lemma PadTwoValue(t: string)
    requires 1 <= |t| <= 2 && AllDigits(t)
    ensures AllDigits(PadTwo(t)) && DigitsValue(PadTwo(t)) == DigitsValue(t)
  {
    if |t| == 1 {
      assert PadTwo(t) == ['0'] + t;
      LeadingZeroValue(t);
    }
  }

  /** The timer text for `t` seconds left: whole minutes, a colon, and the
      remaining seconds padded to two digits; below ten minutes it is four
      characters wide. */
  function TimerText(t: nat): (r: string)
    ensures |r| >= 4 && r[|r| - 3] == ':'
    ensures t < 600 ==> |r| == 4
  {
    BelowHundredTwoDigits(t % 60);
    NatToString(t / 60) + ":" + PadTwo(NatToString(t % 60))
  }

  lemma BelowHundredTwoDigits(n: nat)
    requires n < 100
    ensures |NatToString(n)| <= 2
  {
    if n >= 10 {
      assert NatToString(n) == NatToString(n / 10) + [DigitChar(n % 10)];
    }
  }

  /** Read back, the timer text gives minutes without a leading zero, seconds
      below 60, and together exactly the time left. */
  lemma TimerTextReadsBack(t: nat)
    ensures var r := TimerText(t);
            && |r| >= 4 && r[|r| - 3] == ':'
            && AllDigits(r[..|r| - 3]) && AllDigits(r[|r| - 2..])
            && (|r| > 4 ==> r[0] != '0')
            && DigitsValue(r[|r| - 2..]) < 60
            && DigitsValue(r[..|r| - 3]) * 60 + DigitsValue(r[|r| - 2..]) == t
  {
    var minutes := NatToString(t / 60);
    var secs := NatToString(t % 60);
    var padded := PadTwo(secs);
    PadTwoValue(secs);
    ColonSplit(minutes, padded);
    DivMod60(t);
  }

  lemma ColonSplit(m: string, p: string)
    requires |p| == 2
    ensures var r := m + ":" + p;
            |r| == |m| + 3 && r[..|r| - 3] == m && r[|r| - 3] == ':' && r[|r| - 2..] == p
  {
  }

  lemma DivMod60(t: nat)
    ensures (t / 60) * 60 + t % 60 == t && t % 60 < 60
  {
  }

  /** The countdown starts at "2:00" and ends at "0:00". */
  lemma TimerTextEnds()
    ensures TimerText(120) == "2:00"
    ensures TimerText(0) == "0:00"
  {
    assert NatToString(2) == "2";
    assert NatToString(0) == "0";
    assert PadTwo("0") == "00";
  }

  const CountdownSeconds := 120

  /** The OTP button: disabled while the countdown runs. */
  datatype OtpButton = OtpButton(disabled: bool, caption: string, loading: bool)

  /** The countdown state. The timer element is rewritten from `timeLeft`
      every time `timeLeft` changes, so its text is a function of the state. */
  datatype Countdown = Countdown(timeLeft: int, running: bool, button: OtpButton)

  /** The text the timer element shows. */
  function Display(c: Countdown): string
    requires c.timeLeft >= 0
  {
    TimerText(c.timeLeft)
  }

  /** A running interval always has time left: it is cleared on the tick that
      reaches zero. */
  predicate Consistent(c: Countdown) {
    (c.running ==> c.timeLeft >= 1) && c.timeLeft >= 0
  }

  const OtpSentMessage := "OTP sent successfully"

  /** After a click on "Generate OTP": the phone field's mark and, for a
      valid number, the started countdown. */
  datatype GenerateOutcome = PhoneRejected(phoneField: FieldState)
                           | Started(phoneField: FieldState, countdown: Countdown)

  /** "Generate OTP": a valid number starts a two-minute countdown, disables
      the button and marks the field as sent. The code itself is random and
      not modelled. */
  function GenerateOtp(phone: string): (r: GenerateOutcome)
    ensures r.Started? <==> ValidatePhone(phone)
    ensures r.Started? ==> r.countdown.timeLeft == CountdownSeconds && r.countdown.running
                            && r.countdown.button.disabled && Display(r.countdown) == "2:00"
                            && r.phoneField == Valid(OtpSentMessage)
    ensures r.PhoneRejected? ==> r.phoneField == Invalid(PhoneInvalid)
  {
    PhoneIgnoresTrim(phone);
    TimerTextEnds();
    if !ValidatePhone(Trim(phone)) then PhoneRejected(Invalid(PhoneInvalid))
    else
      var c := Countdown(CountdownSeconds, true, OtpButton(true, "OTP Sent", true));
      Started(Valid(OtpSentMessage), c)
  }

  /** One interval callback: one second less (the display follows), and on
      reaching zero the interval cleared, the button re-enabled and the
      display at "0:00". */
  function Tick(c: Countdown): (r: Countdown)
    requires Consistent(c) && c.running
    ensures Consistent(r)
    ensures r.timeLeft == c.timeLeft - 1
    ensures !r.running ==> Display(r) == "0:00"
    ensures r.running <==> r.timeLeft > 0
    ensures !r.running ==> !r.button.disabled && r.button.caption == "Resend OTP"
    ensures r.running ==> r.button == c.button
  {
    TimerTextEnds();
    var t: nat := c.timeLeft - 1;
    if t == 0 then Countdown(0, false, OtpButton(false, "Resend OTP", false))
    else Countdown(t, true, c.button)
  }

  /** The state after `n` interval callbacks; a cleared interval fires no more. */
  function AfterTicks(c: Countdown, n: nat): (r: Countdown)
    requires Consistent(c)
    ensures Consistent(r)
    decreases n
  {
    if n == 0 || !c.running then c else AfterTicks(Tick(c), n - 1)
  }

  lemma TicksCountDown(c: Countdown, n: nat)
    requires Consistent(c) && c.running
    ensures n < c.timeLeft ==> AfterTicks(c, n).running && AfterTicks(c, n).timeLeft == c.timeLeft - n
    ensures n >= c.timeLeft ==> !AfterTicks(c, n).running && AfterTicks(c, n).timeLeft == 0
                                && !AfterTicks(c, n).button.disabled
  {
    if n < c.timeLeft {
      TicksWhileRunning(c, n);
    } else {
      TicksAfterStop(c, n);
    }
  }

  /** Before the last second every tick leaves the interval running. */
  lemma {:induction false} TicksWhileRunning(c: Countdown, n: nat)
    requires Consistent(c) && c.running && n < c.timeLeft
    ensures AfterTicks(c, n).running && AfterTicks(c, n).timeLeft == c.timeLeft - n
    ensures AfterTicks(c, n).button == c.button
    decreases n
  {
    if n > 0 {
      TicksWhileRunning(Tick(c), n - 1);
    }
  }

  /** From the last second on, the interval is cleared and the button enabled. */
  lemma {:induction false} TicksAfterStop(c: Countdown, n: nat)
    requires Consistent(c) && c.running && n >= c.timeLeft
    ensures !AfterTicks(c, n).running && AfterTicks(c, n).timeLeft == 0 && !AfterTicks(c, n).button.disabled
    decreases n
  {
    var d := Tick(c);
    if d.running {
      TicksAfterStop(d, n - 1);
    } else {
      assert AfterTicks(d, n - 1) == d;
    }
  }

  /** The countdown shows every second from 2:00 down; the button comes back
      exactly on the 120th tick and the display then reads 0:00. */
  lemma CountdownLastsTwoMinutes(phone: string, n: nat)
    requires GenerateOtp(phone).Started?
    ensures var c := AfterTicks(GenerateOtp(phone).countdown, n);
            (n < 120 <==> c.running) && c.timeLeft == (if n < 120 then 120 - n else 0)
            && (n < 120 ==> c.button.disabled)
            && (n >= 120 ==> !c.button.disabled && Display(c) == "0:00")
  {
    TicksCountDown(GenerateOtp(phone).countdown, n);
    if n < 120 {
      TicksWhileRunning(GenerateOtp(phone).countdown, n);
    }
    TimerTextEnds();
  }
}

=== FILE: registration_validation.dfy ===
/** The parent registration page's client-side checks: the field validators,
    the password-strength meter's count and label, the two OTP buttons'
    pre-checks, and the submit handler's gate. Each validator returns the
    empty string when the field is acceptable and an error message otherwise,
    as the page does. The date-of-birth check reads the clock and is taken as
    an input of the gate. */
module RegistrationValidation {
  import opened Text

  const NameEmptyError := "Name cannot be empty."
  const NameShortError := "Name must be at least 2 characters."
  const EmailError := "Please enter a valid email address."
  const MobileError := "Please enter a valid 10-digit mobile number."
  const PasswordShortError := "Password must be at least 8 characters long."
  const PasswordUpperError := "Password must contain an uppercase letter."
  const PasswordLowerError := "Password must contain a lowercase letter."
  const PasswordDigitError := "Password must contain a number."
  const PasswordSpecialError := "Password must contain a special character."
  const ConfirmPasswordError := "Passwords do not match."
  const TermsError := "You must agree to the Terms & Conditions."
  const OtpLengthError := "Please enter a 6-digit OTP."

  const MinNameLength := 2
  const MinPasswordLength := 8
  const MobileLength := 10
  const OtpLength := 6

  // ---------------------------------------------------------------------
  // Name
  // ---------------------------------------------------------------------

  /** A blank name is reported before a short one; the length is that of the
      untrimmed value, in UTF-16 code units. */
  function ValidateName(name: string): (r: string)
    ensures r == "" <==> Trim(name) != [] && Utf16Length(name) >= 2
    ensures r == NameEmptyError <==> AllWhitespace(name)
    ensures r == NameShortError <==> !AllWhitespace(name) && Utf16Length(name) < 2
  {
    if Trim(name) == [] then NameEmptyError
    else if Utf16Length(name) < MinNameLength then NameShortError
    else ""
  }

  // ---------------------------------------------------------------------
  // Email: `^[^\s@]+@[^\s@]+\.[^\s@]+$`
  // ---------------------------------------------------------------------

  /** `[^\s@]` */
  predicate EmailChar(c: char) { !IsWhitespace(c) && c != '@' }

  /** `[^\s@]+` */
  predicate EmailRun(t: string) { |t| > 0 && forall i :: 0 <= i < |t| ==> EmailChar(t[i]) }

  /** The pattern, read as three runs separated by the '@' at `a` and the
      '.' at `d`. */
  predicate MatchesEmailAt(s: string, a: int, d: int) {
    && 0 <= a < d < |s|
    && s[a] == '@' && s[d] == '.'
    && EmailRun(s[..a]) && EmailRun(s[a + 1..d]) && EmailRun(s[d + 1..])
  }

  predicate MatchesEmailPattern(s: string) {
    exists a, d :: 0 <= a < d < |s| && MatchesEmailAt(s, a, d)
  }

  function ValidateEmail(email: string): (r: string)
    ensures r == "" || r == EmailError
  {
    if MatchesEmailPattern(email) then "" else EmailError
  }

  /** The shape of an accepted address, stated without the pattern: no
      whitespace, exactly one '@' with text before it, and after it some '.'
      with text on both sides. */
  predicate EmailShape(s: string) {
    && NoWhitespace(s)
    && Count(s, '@') == 1
    && exists a, d :: 0 < a && a + 1 < d < |s| - 1 && s[a] == '@' && s[d] == '.'
  }

  lemma EmailAcceptedIff(email: string)
    ensures ValidateEmail(email) == "" <==> EmailShape(email)
  {
    if ValidateEmail(email) == "" {
      var a, d :| 0 <= a < d < |email| && MatchesEmailAt(email, a, d);
      EmailPatternShape(email, a, d);
    }
    if EmailShape(email) {
      var a, d :| 0 < a && a + 1 < d < |email| - 1 && email[a] == '@' && email[d] == '.';
      EmailShapePattern(email, a, d);
    }
  }

  lemma EmailPatternShape(s: string, a: int, d: int)
    requires MatchesEmailAt(s, a, d)
    ensures EmailShape(s)
  {
    forall k | 0 <= k < |s| && k != a ensures EmailChar(s[k]) {
      if k < a { assert s[k] == s[..a][k]; }
      else if k < d { assert s[k] == s[a + 1..d][k - a - 1]; }
      else if k > d { assert s[k] == s[d + 1..][k - d - 1]; }
    }
    CountOne(s, '@', a);
    assert |s[..a]| > 0 && |s[a + 1..d]| > 0 && |s[d + 1..]| > 0;
  }

  lemma EmailShapePattern(s: string, a: int, d: int)
    requires EmailShape(s)
    requires 0 < a && a + 1 < d < |s| - 1 && s[a] == '@' && s[d] == '.'
    ensures MatchesEmailPattern(s)
  {
    CountOne(s, '@', a);
    assert MatchesEmailAt(s, a, d);
  }

  // ---------------------------------------------------------------------
  // Mobile number: `^[0-9]{10}$`
  // ---------------------------------------------------------------------

  function ValidateMobile(mobile: string): (r: string)
    ensures r == "" <==> |mobile| == 10 && AllDigits(mobile)
    ensures r == "" || r == MobileError
  {
    if |mobile| == MobileLength && AllDigits(mobile) then "" else MobileError
  }

  // ---------------------------------------------------------------------
  // Password
  // ---------------------------------------------------------------------

  /** The first failing rule, in the order length, uppercase, lowercase,
      digit, special character. */
  function ValidatePassword(password: string): (r: string)
    ensures r == "" <==> (Utf16Length(password) >= 8 && HasUpper(password)
                          && HasLower(password) && HasDigit(password) && HasSpecial(password))
    ensures r == PasswordShortError <==> Utf16Length(password) < 8
    ensures r == PasswordUpperError <==> Utf16Length(password) >= 8 && !HasUpper(password)
    ensures r == PasswordLowerError <==>
              Utf16Length(password) >= 8 && HasUpper(password) && !HasLower(password)
    ensures r == PasswordDigitError <==>
              Utf16Length(password) >= 8 && HasUpper(password) && HasLower(password)
              && !HasDigit(password)
    ensures r == PasswordSpecialError <==>
              Utf16Length(password) >= 8 && HasUpper(password) && HasLower(password)
              && HasDigit(password) && !HasSpecial(password)
  {
    if Utf16Length(password) < MinPasswordLength then PasswordShortError
    else if !HasUpper(password) then PasswordUpperError
    else if !HasLower(password) then PasswordLowerError
    else if !HasDigit(password) then PasswordDigitError
    else if !HasSpecial(password) then PasswordSpecialError
    else ""
  }

  function ValidateConfirmPassword(password: string, confirmPassword: string): (r: string)
    ensures r == "" <==> password == confirmPassword
    ensures r == "" || r == ConfirmPasswordError
  {
    if password != confirmPassword then ConfirmPasswordError else ""
  }

  // ---------------------------------------------------------------------
  // Password-strength meter
  // ---------------------------------------------------------------------

  function Indicator(b: bool): nat { if b then 1 else 0 }

  /** One point per rule the password meets. */
  function Strength(password: string): (n: nat)
    ensures n <= 5
    ensures n == 5 <==> ValidatePassword(password) == ""
  {
    Indicator(Utf16Length(password) >= MinPasswordLength) + Indicator(HasUpper(password))
      + Indicator(HasLower(password)) + Indicator(HasDigit(password))
      + Indicator(HasSpecial(password))
  }

  const WeakLabel := "Weak"
  const MediumLabel := "Medium"
  const StrongLabel := "Strong"
  const PlaceholderLabel := "Password strength"

  /** The label for a criteria count: one of the four captions, and the
      placeholder only for a count outside 0 to 5. */
  function StrengthLabel(strength: int): (r: string)
    ensures r in {WeakLabel, MediumLabel, StrongLabel, PlaceholderLabel}
    ensures r == PlaceholderLabel <==> strength > 5
    ensures 0 <= strength <= 5 ==> (r == StrongLabel <==> strength == 5)
  {
    if strength <= 2 then WeakLabel
    else if strength == 3 || strength == 4 then MediumLabel
    else if strength == 5 then StrongLabel
    else PlaceholderLabel
  }

  /** The meter's label for a typed password: the placeholder branch is
      unreachable, and "Strong" appears exactly for acceptable passwords. */
  lemma StrengthLabelOfPassword(password: string)
    ensures StrengthLabel(Strength(password)) != PlaceholderLabel
    ensures StrengthLabel(Strength(password)) == StrongLabel <==> ValidatePassword(password) == ""
    ensures StrengthLabel(Strength(password)) == WeakLabel <==> Strength(password) <= 2
  {
  }

  // ---------------------------------------------------------------------
  // OTP buttons
  // ---------------------------------------------------------------------

  /** What a button press leads to: an error shown, or a request sent. */
  datatype OtpStep = ShowError(message: string) | SendRequest(mobile: string, otp: string)

  /** "Send OTP": the trimmed number must pass the mobile check. */
  function SendOtpStep(phone: string): (r: OtpStep)
    ensures r.SendRequest? <==> ValidateMobile(Trim(phone)) == ""
    ensures r.SendRequest? ==> r.mobile == Trim(phone) && |r.mobile| == 10 && r.otp == ""
    ensures r.ShowError? ==> r.message == MobileError
  {
    var mobile := Trim(phone);
    var err := ValidateMobile(mobile);
    if err == "" then SendRequest(mobile, "") else ShowError(err)
  }

  /** "Verify OTP": only the length of the trimmed code is checked here. */
  function VerifyOtpStep(phone: string, otp: string): (r: OtpStep)
    ensures r.SendRequest? <==> Utf16Length(Trim(otp)) == 6
    ensures r.SendRequest? ==> r == SendRequest(Trim(phone), Trim(otp))
    ensures r.ShowError? ==> r.message == OtpLengthError
  {
    if Utf16Length(Trim(otp)) != OtpLength then ShowError(OtpLengthError)
    else SendRequest(Trim(phone), Trim(otp))
  }

  // ---------------------------------------------------------------------
  // Submit
  // ---------------------------------------------------------------------

  datatype RegistrationForm = RegistrationForm(
    name: string,
    email: string,
    mobile: string,
    dob: string,
    password: string,
    confirmPassword: string,
    termsChecked: bool)

  datatype FormErrors = FormErrors(
    name: string,
    email: string,
    mobile: string,
    dob: string,
    password: string,
    confirmPassword: string,
    terms: string)
  {
    predicate AllClear() {
      name == "" && email == "" && mobile == "" && dob == ""
      && password == "" && confirmPassword == "" && terms == ""
    }
  }

  /** The registration request's body. */
  datatype Registration = Registration(
    name: string, email: string, mobile: string, dob: string, password: string)

  datatype SubmitOutcome =
    | Rejected(errors: FormErrors)
    | NeedsVerification
    | Register(body: Registration)

  /** The seven messages the submit handler computes; name, email and mobile
      are trimmed first, the passwords are not. */
  function CheckForm(form: RegistrationForm, dobError: string): (r: FormErrors)
    ensures r.AllClear() <==>
              && ValidateName(Trim(form.name)) == ""
              && ValidateEmail(Trim(form.email)) == ""
              && |Trim(form.mobile)| == 10 && AllDigits(Trim(form.mobile))
              && dobError == ""
              && ValidatePassword(form.password) == ""
              && form.password == form.confirmPassword
              && form.termsChecked
    ensures r.name == ValidateName(Trim(form.name))
    ensures r.email == ValidateEmail(Trim(form.email))
    ensures r.mobile == ValidateMobile(Trim(form.mobile))
    ensures r.dob == dobError
    ensures r.password == ValidatePassword(form.password)
    ensures r.confirmPassword == ValidateConfirmPassword(form.password, form.confirmPassword)
    ensures r.terms == "" <==> form.termsChecked
    ensures r.terms != "" ==> r.terms == TermsError
  {
    FormErrors(
      ValidateName(Trim(form.name)),
      ValidateEmail(Trim(form.email)),
      ValidateMobile(Trim(form.mobile)),
      dobError,
      ValidatePassword(form.password),
      ValidateConfirmPassword(form.password, form.confirmPassword),
      if form.termsChecked then "" else TermsError)
  }

  /** The submit handler: any error stops it, then an unverified number
      stops it, otherwise the registration is sent. */
  function Submit(form: RegistrationForm, dobError: string, mobileVerified: bool): (r: SubmitOutcome)
    ensures r.Register? <==>
              && ValidateName(Trim(form.name)) == ""
              && ValidateEmail(Trim(form.email)) == ""
              && ValidateMobile(Trim(form.mobile)) == ""
              && dobError == ""
              && ValidatePassword(form.password) == ""
              && form.password == form.confirmPassword
              && form.termsChecked
              && mobileVerified
    ensures r.Register? ==> r.body == Registration(
              Trim(form.name), Trim(form.email), Trim(form.mobile), form.dob, form.password)
    ensures r.NeedsVerification? <==> CheckForm(form, dobError).AllClear() && !mobileVerified
    ensures r.Rejected? ==> !r.errors.AllClear() && r.errors == CheckForm(form, dobError)
  {
    var errors := CheckForm(form, dobError);
    if !errors.AllClear() then Rejected(errors)
    else if !mobileVerified then NeedsVerification
    else Register(Registration(Trim(form.name), Trim(form.email), Trim(form.mobile), form.dob, form.password))
  }

  /** A registration that is sent carries a password the meter calls strong
      and a ten-digit mobile number. */
  lemma RegisteredIsStrong(form: RegistrationForm, dobError: string, mobileVerified: bool)
    requires Submit(form, dobError, mobileVerified).Register?
    ensures StrengthLabel(Strength(form.password)) == StrongLabel
    ensures |Submit(form, dobError, mobileVerified).body.mobile| == 10
  {
  }
}

=== FILE: risk_models.dfy ===
/** The alert and message records and the score-to-tier classification they
    each carry. Only the fields the classification touches are interpreted;
    the device foreign key is kept as the device's identifier and the
    creation timestamp as an opaque number. */
module RiskModels {

  /** The four risk tiers, least to most severe. */
  datatype RiskLevel = Safe | Low | Medium | High

  /** Position of a tier in the order safe < low < medium < high. */
  function Rank(level: RiskLevel): nat
  {
    match level
    case Safe => 0
    case Low => 1
    case Medium => 2
    case High => 3
  }

  /** The stored key of each tier, as in the `RISK_LEVELS` choices. */
  function Key(level: RiskLevel): string
  {
    match level
    case Safe => "safe"
    case Low => "low"
    case Medium => "medium"
    case High => "high"
  }

  /** The `RISK_LEVELS` choices: stored key and display label. */
  const RiskLevelChoices: seq<(string, string)> :=
    [("safe", "Safe"), ("low", "Low Risk"), ("medium", "Medium Risk"), ("high", "High Risk")]

  predicate IsChoiceKey(key: string) {
    exists i :: 0 <= i < |RiskLevelChoices| && RiskLevelChoices[i].0 == key
  }

  /** Reads a stored key back; anything outside the choices is not a tier. */
  function ParseKey(key: string): (r: RiskLevel)
    requires IsChoiceKey(key)
    ensures Key(r) == key
  {
    if key == "safe" then Safe
    else if key == "low" then Low
    else if key == "medium" then Medium
    else High
  }

  /** Every tier is stored under one of the choices, and distinct tiers
      under distinct keys. */
  lemma KeyIsChoice(level: RiskLevel)
    ensures IsChoiceKey(Key(level))
    ensures ParseKey(Key(level)) == level
  {
    match level
    case Safe => assert RiskLevelChoices[0].0 == Key(level);
    case Low => assert RiskLevelChoices[1].0 == Key(level);
    case Medium => assert RiskLevelChoices[2].0 == Key(level);
    case High => assert RiskLevelChoices[3].0 == Key(level);
  }

  // ---------------------------------------------------------------------
  // Alert
  // ---------------------------------------------------------------------

  datatype Alert = Alert(
    device: string,
    excerpt: string,
    score: int,
    riskLevel: string,
    acknowledged: bool,
    timestamp: int)

  /** `Alert.get_risk_level`. */
  function AlertRiskLevel(a: Alert): (r: RiskLevel)
    ensures r == High <==> a.score >= 7
    ensures r == Medium <==> 4 <= a.score <= 6
    ensures r == Low <==> 1 <= a.score <= 3
    ensures r == Safe <==> a.score <= 0
  {
    if a.score >= 7 then High
    else if a.score >= 4 then Medium
    else if a.score >= 1 then Low
    else Safe
  }

  /** `Alert.save`: the stored tier is recomputed from the score, whatever
      it was before, and nothing else changes. */
  function SaveAlert(a: Alert): (r: Alert)
    ensures r.riskLevel == Key(AlertRiskLevel(a))
    ensures IsChoiceKey(r.riskLevel)
    ensures r.(riskLevel := a.riskLevel) == a
  {
    KeyIsChoice(AlertRiskLevel(a));
    a.(riskLevel := Key(AlertRiskLevel(a)))
  }

  /** Saving twice is saving once. */
  lemma SaveAlertIdempotent(a: Alert)
    ensures SaveAlert(SaveAlert(a)) == SaveAlert(a)
  {
  }

  // ---------------------------------------------------------------------
  // Message
  // ---------------------------------------------------------------------

  datatype Message = Message(
    device: string,
    messageText: string,
    riskScore: int,
    riskLevel: string,
    flaggedKeywords: seq<string>,
    timestamp: int)

  /** `Message.get_risk_level`: the same thresholds, applied to `risk_score`. */
  function MessageRiskLevel(m: Message): (r: RiskLevel)
    ensures r == High <==> m.riskScore >= 7
    ensures r == Medium <==> 4 <= m.riskScore <= 6
    ensures r == Low <==> 1 <= m.riskScore <= 3
    ensures r == Safe <==> m.riskScore <= 0
  {
    if m.riskScore >= 7 then High
    else if m.riskScore >= 4 then Medium
    else if m.riskScore >= 1 then Low
    else Safe
  }

  /** `Message.save`. */
  function SaveMessage(m: Message): (r: Message)
    ensures r.riskLevel == Key(MessageRiskLevel(m))
    ensures IsChoiceKey(r.riskLevel)
    ensures r.(riskLevel := m.riskLevel) == m
  {
    KeyIsChoice(MessageRiskLevel(m));
    m.(riskLevel := Key(MessageRiskLevel(m)))
  }

  // ---------------------------------------------------------------------
  // Properties of the classification
  // ---------------------------------------------------------------------

  /** The two copies of the classification agree on equal scores. */
  lemma RiskLevelsAgree(a: Alert, m: Message)
    requires a.score == m.riskScore
    ensures AlertRiskLevel(a) == MessageRiskLevel(m)
  {
  }

  /** A larger score never yields a lower tier. */
  lemma RiskLevelMonotone(a: Alert, b: Alert)
    requires a.score <= b.score
    ensures Rank(AlertRiskLevel(a)) <= Rank(AlertRiskLevel(b))
  {
  }

  /** The tier depends on the score alone: no other field influences it. */
  lemma RiskLevelOnlyFromScore(a: Alert, b: Alert)
    requires a.score == b.score
    ensures AlertRiskLevel(a) == AlertRiskLevel(b)
  {
  }
}

=== FILE: signup_validation.dfy ===
/** The second copy of the sign-up checks, loaded by the static sign-up page:
    name, mobile number and password validators, the OTP buttons' pre-checks
    and the submit gate. Unlike the registration page, this page passes the
    raw field values, without trimming. */
module SignupValidation {
  import opened Text
  import RegistrationValidation

  const NameEmptyError := "Name cannot be empty."
  const NameShortError := "Name must be at least 2 characters."
  const MobileError := "Please enter a valid 10-digit mobile number."
  const PasswordShortError := "Password must be at least 8 characters long."
  const PasswordUpperError := "Password must contain an uppercase letter."
  const PasswordLowerError := "Password must contain a lowercase letter."
  const PasswordDigitError := "Password must contain a number."
  const PasswordSpecialError := "Password must contain a special character."
  const OtpLengthError := "Please enter a 6-digit OTP."

  function ValidateName(name: string): (r: string)
    ensures r == "" <==> Trim(name) != [] && Utf16Length(name) >= 2
    ensures r == NameEmptyError <==> AllWhitespace(name)
  {
    if Trim(name) == [] then NameEmptyError
    else if Utf16Length(name) < 2 then NameShortError
    else ""
  }

  /** `^[0-9]{10}$` */
  function ValidateMobile(mobile: string): (r: string)
    ensures r == "" <==> |mobile| == 10 && AllDigits(mobile)
  {
    if |mobile| == 10 && AllDigits(mobile) then "" else MobileError
  }

  function ValidatePassword(password: string): (r: string)
    ensures r == "" <==> (Utf16Length(password) >= 8 && HasUpper(password)
                          && HasLower(password) && HasDigit(password) && HasSpecial(password))
    ensures r == PasswordShortError <==> Utf16Length(password) < 8
    ensures r == PasswordUpperError <==> Utf16Length(password) >= 8 && !HasUpper(password)
  {
    if Utf16Length(password) < 8 then PasswordShortError
    else if !HasUpper(password) then PasswordUpperError
    else if !HasLower(password) then PasswordLowerError
    else if !HasDigit(password) then PasswordDigitError
    else if !HasSpecial(password) then PasswordSpecialError
    else ""
  }

  /** The two copies of the validators give the same answer on every input. */
  lemma ValidatorsAgree(s: string)
    ensures ValidateName(s) == RegistrationValidation.ValidateName(s)
    ensures ValidateMobile(s) == RegistrationValidation.ValidateMobile(s)
    ensures ValidatePassword(s) == RegistrationValidation.ValidatePassword(s)
  {
  }

  // ---------------------------------------------------------------------
  // OTP buttons
  // ---------------------------------------------------------------------

  datatype OtpStep = ShowError(message: string) | SendRequest(mobile: string, otp: string)

  /** "Send OTP" checks the raw number. */
  function SendOtpStep(mobile: string): (r: OtpStep)
    ensures r.SendRequest? <==> |mobile| == 10 && AllDigits(mobile)
    ensures r.SendRequest? ==> r.mobile == mobile
  {
    var err := ValidateMobile(mobile);
    if err == "" then SendRequest(mobile, "") else ShowError(err)
  }

  /** "Verify OTP" checks only the raw code's length. */
  function VerifyOtpStep(mobile: string, otp: string): (r: OtpStep)
    ensures r.SendRequest? <==> Utf16Length(otp) == 6
    ensures r.SendRequest? ==> r == SendRequest(mobile, otp)
  {
    if Utf16Length(otp) != 6 then ShowError(OtpLengthError) else SendRequest(mobile, otp)
  }

  /** A six-digit code typed with a space on each side passes the
      registration page's check, which trims, but fails this page's. */
  lemma VerifyOtpTrimDiffers(digits: string)
    requires |digits| == 6 && AllDigits(digits)
    ensures VerifyOtpStep("", " " + digits + " ").ShowError?
    ensures RegistrationValidation.VerifyOtpStep("", " " + digits + " ").SendRequest?
  {
    var code := " " + digits + " ";
    TrimSurrounded(" ", digits, " ");
    assert forall i :: 0 <= i < |code| ==> IsBmp(code[i]);
    assert forall i :: 0 <= i < |digits| ==> IsBmp(digits[i]);
  }

  // ---------------------------------------------------------------------
  // Submit
  // ---------------------------------------------------------------------

  datatype Registration = Registration(name: string, mobile: string, password: string)

  datatype SubmitOutcome = Blocked(nameError: string, mobileError: string, passwordError: string)
                         | Register(body: Registration)

  /** The form is sent only when all three messages are empty and the number
      has been verified; the messages are shown either way. */
  function Submit(name: string, mobile: string, password: string, mobileVerified: bool): (r: SubmitOutcome)
    ensures r.Register? <==>
              && Trim(name) != [] && Utf16Length(name) >= 2
              && |mobile| == 10 && AllDigits(mobile)
              && RegistrationValidation.Strength(password) == 5
              && mobileVerified
    ensures r.Register? ==> r.body == Registration(name, mobile, password)
    ensures r.Blocked? ==> r == Blocked(ValidateName(name), ValidateMobile(mobile), ValidatePassword(password))
  {
    var nameError := ValidateName(name);
    var mobileError := ValidateMobile(mobile);
    var passwordError := ValidatePassword(password);
    ValidatorsAgree(password);
    if nameError != "" || mobileError != "" || passwordError != "" || !mobileVerified then
      Blocked(nameError, mobileError, passwordError)
    else
      Register(Registration(name, mobile, password))
  }
}

=== FILE: text.dfy ===
/** Character classes and string primitives shared by the server-side scorer
    (Python) and the browser-side validators (JavaScript).

    Strings are `seq<char>`, one element per Unicode scalar value. Where the
    JavaScript code measures `.length` (UTF-16 code units) the model says so
    explicitly through `Utf16Length`. */
module Text {

  // ---------------------------------------------------------------------
  // Character classes
  // ---------------------------------------------------------------------

  /** `[0-9]` and `\d` (JavaScript's `\d` is ASCII only). */
  predicate IsDigit(c: char) { '0' <= c <= '9' }

  /** `[A-Z]` */
  predicate IsUpper(c: char) { 'A' <= c <= 'Z' }

  /** `[a-z]` */
  predicate IsLower(c: char) { 'a' <= c <= 'z' }

  /** `[A-Za-z0-9]` */
  predicate IsAlnum(c: char) { IsDigit(c) || IsUpper(c) || IsLower(c) }

  /** The ECMAScript WhiteSpace and LineTerminator code points: the class
      `\s` matches and `String.prototype.trim` strips. */
  predicate IsWhitespace(c: char) {
    || c == '\t' || c == '\n' || c == '\U{000B}' || c == '\U{000C}' || c == '\r'
    || c == ' ' || c == '\U{00A0}' || c == '\U{1680}'
    || ('\U{2000}' <= c <= '\U{200A}')
    || c == '\U{2028}' || c == '\U{2029}' || c == '\U{202F}' || c == '\U{205F}'
    || c == '\U{3000}' || c == '\U{FEFF}'
  }

  predicate AllDigits(s: string) { forall i :: 0 <= i < |s| ==> IsDigit(s[i]) }

  predicate AllWhitespace(s: string) { forall i :: 0 <= i < |s| ==> IsWhitespace(s[i]) }

  predicate NoWhitespace(s: string) { forall i :: 0 <= i < |s| ==> !IsWhitespace(s[i]) }

  predicate HasUpper(s: string) { exists i :: 0 <= i < |s| && IsUpper(s[i]) }

  predicate HasLower(s: string) { exists i :: 0 <= i < |s| && IsLower(s[i]) }

  predicate HasDigit(s: string) { exists i :: 0 <= i < |s| && IsDigit(s[i]) }

  /** `[^A-Za-z0-9]` finds a match. */
  predicate HasSpecial(s: string) { exists i :: 0 <= i < |s| && !IsAlnum(s[i]) }

  // ---------------------------------------------------------------------
  // Lower-casing
  // ---------------------------------------------------------------------

  /** ASCII lower-casing of one character; every other character is kept. */
  function LowerChar(c: char): (r: char)
    ensures IsUpper(c) ==> IsLower(r) && r as int == c as int + 32
    ensures !IsUpper(c) ==> r == c
  {
    if IsUpper(c) then (c as int + 32) as char else c
  }

  function Lower(s: string): (r: string)
    ensures |r| == |s|
    ensures forall i :: 0 <= i < |s| ==> r[i] == LowerChar(s[i])
  {
    seq(|s|, i requires 0 <= i < |s| => LowerChar(s[i]))
  }

  // ---------------------------------------------------------------------
  // Length in UTF-16 code units (JavaScript's `.length`)
  // ---------------------------------------------------------------------

  /** Characters beyond the Basic Multilingual Plane occupy two code units. */
  function CodeUnits(c: char): nat { if c as int > 0xFFFF then 2 else 1 }

  function Utf16Length(s: string): (n: nat)
    ensures |s| <= n <= 2 * |s|
    ensures (forall i :: 0 <= i < |s| ==> IsBmp(s[i])) ==> n == |s|
  {
    if |s| == 0 then 0 else Utf16Length(s[..|s| - 1]) + CodeUnits(s[|s| - 1])
  }

  /** A character that is a single UTF-16 code unit. */
  predicate IsBmp(c: char) { c as int <= 0xFFFF }

  lemma Utf16LengthZero(s: string)
    ensures Utf16Length(s) == 0 <==> s == []
  {
  }

  // ---------------------------------------------------------------------
  // Trimming (JavaScript's `String.prototype.trim`)
  // ---------------------------------------------------------------------

  /** Number of leading whitespace characters. */
  function LeadingWhitespace(s: string): (n: nat)
    ensures n <= |s|
    ensures AllWhitespace(s[..n])
    ensures n < |s| ==> !IsWhitespace(s[n])
  {
    if |s| == 0 || !IsWhitespace(s[0]) then 0
    else
      var n := 1 + LeadingWhitespace(s[1..]);
      assert s[..n] == [s[0]] + s[1..][..n - 1];
      n
  }

  /** Number of trailing whitespace characters. */
  function TrailingWhitespace(s: string): (n: nat)
    ensures n <= |s|
    ensures AllWhitespace(s[|s| - n..])
    ensures n < |s| ==> !IsWhitespace(s[|s| - 1 - n])
  {
    if |s| == 0 || !IsWhitespace(s[|s| - 1]) then 0
    else
      var init := s[..|s| - 1];
      var n := 1 + TrailingWhitespace(init);
      assert s[|s| - n..] == init[|init| - (n - 1)..] + [s[|s| - 1]];
      n
  }

  /** Both ends stripped of whitespace; what is kept is one contiguous slice. */
  function Trim(s: string): (r: string)
    ensures |r| <= |s|
    ensures r == [] <==> AllWhitespace(s)
    ensures r != [] ==> !IsWhitespace(r[0]) && !IsWhitespace(r[|r| - 1])
    ensures NoWhitespace(s) ==> r == s
  {
    var a := LeadingWhitespace(s);
    var rest := s[a..];
    var r := rest[..|rest| - TrailingWhitespace(rest)];
    TrimEmpty(s, a, rest, r);
    r
  }

  lemma TrimEmpty(s: string, a: nat, rest: string, r: string)
    requires a == LeadingWhitespace(s) && rest == s[a..]
    requires r == rest[..|rest| - TrailingWhitespace(rest)]
    ensures r == [] <==> AllWhitespace(s)
  {
    if r == [] {
      TrailingAll(rest);
      LeadingStopsAt(s);
    }
    if AllWhitespace(s) {
      LeadingAll(s);
    }
  }

  lemma TrailingAll(s: string)
    requires TrailingWhitespace(s) == |s|
    ensures AllWhitespace(s)
  {
    assert s[|s| - TrailingWhitespace(s)..] == s;
  }

  lemma LeadingStopsAt(s: string)
    requires AllWhitespace(s[LeadingWhitespace(s)..])
    ensures AllWhitespace(s)
  {
    var a := LeadingWhitespace(s);
    assert s == s[..a] + s[a..];
    AllWhitespaceConcat(s[..a], s[a..]);
  }

  lemma AllWhitespaceConcat(x: string, y: string)
    requires AllWhitespace(x) && AllWhitespace(y)
    ensures AllWhitespace(x + y)
  {
    forall i | 0 <= i < |x + y| ensures IsWhitespace((x + y)[i]) {
      if i < |x| { assert (x + y)[i] == x[i]; } else { assert (x + y)[i] == y[i - |x|]; }
    }
  }

  lemma LeadingAll(s: string)
    requires AllWhitespace(s)
    ensures LeadingWhitespace(s) == |s|
  {
  }

  /** What trim removes and keeps: s is whitespace, then the result, then whitespace. */
  lemma TrimParts(s: string) returns (pre: string, post: string)
    ensures s == pre + Trim(s) + post
    ensures AllWhitespace(pre) && AllWhitespace(post)
  {
    var a := LeadingWhitespace(s);
    var rest := s[a..];
    var b := TrailingWhitespace(rest);
    var k := |rest| - b;
    pre, post := s[..a], rest[k..];
    var core := rest[..k];
    assert Trim(s) == core;
    SliceSplit(rest, k);
    SliceSplit(s, a);
    ConcatAssoc(pre, core, post);
  }

  lemma ConcatAssoc<T>(x: seq<T>, y: seq<T>, z: seq<T>)
    ensures x + (y + z) == x + y + z
  {
  }

  lemma SliceSplit(s: string, k: nat)
    requires k <= |s|
    ensures s == s[..k] + s[k..]
  {
  }

  lemma {:induction false} LeadingWhitespacePrefix(w: string, t: string)
    requires AllWhitespace(w)
    ensures LeadingWhitespace(w + t) == |w| + LeadingWhitespace(t)
    decreases |w|
  {
    if |w| > 0 {
      assert (w + t)[0] == w[0];
      assert (w + t)[1..] == w[1..] + t;
      LeadingWhitespacePrefix(w[1..], t);
    } else {
      assert w + t == t;
    }
  }

  lemma {:induction false} TrailingWhitespaceSuffix(t: string, w: string)
    requires AllWhitespace(w)
    ensures TrailingWhitespace(t + w) == TrailingWhitespace(t) + |w|
    decreases |w|
  {
    if |w| > 0 {
      var s := t + w;
      assert s[|s| - 1] == w[|w| - 1];
      assert s[..|s| - 1] == t + w[..|w| - 1];
      TrailingWhitespaceSuffix(t, w[..|w| - 1]);
    } else {
      assert t + w == t;
    }
  }

  /** Trim removes exactly the whitespace around a core that starts and ends
      with a non-whitespace character. */
  lemma TrimSurrounded(w1: string, core: string, w2: string)
    requires AllWhitespace(w1) && AllWhitespace(w2)
    requires |core| > 0 && !IsWhitespace(core[0]) && !IsWhitespace(core[|core| - 1])
    ensures Trim(w1 + core + w2) == core
  {
    var s := w1 + core + w2;
    assert s == w1 + (core + w2);
    LeadingWhitespacePrefix(w1, core + w2);
    assert (core + w2)[0] == core[0];
    var rest := s[|w1|..];
    assert rest == core + w2;
    TrailingWhitespaceSuffix(core, w2);
  }

  // ---------------------------------------------------------------------
  // Whitespace removal (`s.replace(/\s/g, '')`)
  // ---------------------------------------------------------------------

  function RemoveWhitespace(s: string): (r: string)
    ensures NoWhitespace(r)
    ensures |r| <= |s|
    ensures NoWhitespace(s) ==> r == s
    ensures AllWhitespace(s) ==> r == []
  {
    if |s| == 0 then []
    else if IsWhitespace(s[0]) then RemoveWhitespace(s[1..])
    else [s[0]] + RemoveWhitespace(s[1..])
  }

  lemma {:induction false} RemoveWhitespaceAppend(a: string, b: string)
    ensures RemoveWhitespace(a + b) == RemoveWhitespace(a) + RemoveWhitespace(b)
    decreases |a|
  {
    if |a| == 0 {
      assert a + b == b;
    } else {
      assert (a + b)[1..] == a[1..] + b;
      RemoveWhitespaceAppend(a[1..], b);
    }
  }

  // ---------------------------------------------------------------------
  // Substring containment (Python's `k in s`)
  // ---------------------------------------------------------------------

  predicate OccursAt(s: string, k: string, i: int) {
    0 <= i && i + |k| <= |s| && s[i..i + |k|] == k
  }

  predicate Contains(s: string, k: string) {
    exists i :: 0 <= i <= |s| - |k| && OccursAt(s, k, i)
  }

  /** Containment is transitive: a factor of a factor is a factor. */
  lemma ContainsTransitive(s: string, k: string, f: string)
    requires Contains(s, k) && Contains(k, f)
    ensures Contains(s, f)
  {
    var i :| 0 <= i <= |s| - |k| && OccursAt(s, k, i);
    var j :| 0 <= j <= |k| - |f| && OccursAt(k, f, j);
    assert s[i..i + |k|] == k;
    forall t | 0 <= t < |f| ensures s[i + j + t] == f[t] {
      assert s[i + j + t] == s[i..i + |k|][j + t];
      assert f[t] == k[j..j + |f|][t];
    }
    assert s[i + j..i + j + |f|] == f;
    assert OccursAt(s, f, i + j);
  }

  /** A string containing a non-empty keyword contains its first character. */
  lemma ContainsFirstChar(s: string, k: string)
    requires |k| > 0 && Contains(s, k)
    ensures k[0] in s
  {
    var i :| 0 <= i <= |s| - |k| && OccursAt(s, k, i);
    assert s[i..i + |k|][0] == k[0];
  }

  // ---------------------------------------------------------------------
  // Counting a character
  // ---------------------------------------------------------------------

  function Count(s: string, c: char): (n: nat)
    ensures n <= |s|
    ensures n == 0 <==> c !in s
  {
    if |s| == 0 then 0 else (if s[0] == c then 1 else 0) + Count(s[1..], c)
  }

  /** A character occurs exactly once iff it sits at one index and nowhere else. */
  lemma {:induction false} CountOne(s: string, c: char, a: int)
    requires 0 <= a < |s| && s[a] == c
    ensures Count(s, c) == 1 <==> forall k :: 0 <= k < |s| && k != a ==> s[k] != c
    decreases |s|
  {
    if a == 0 {
      assert Count(s, c) == 1 + Count(s[1..], c);
      if Count(s[1..], c) == 0 {
        forall k | 0 < k < |s| ensures s[k] != c { assert s[k] == s[1..][k - 1]; }
      } else {
        assert c in s[1..];
        var j :| 0 <= j < |s[1..]| && s[1..][j] == c;
        assert s[j + 1] == c;
      }
    } else {
      CountOne(s[1..], c, a - 1);
      if s[0] == c {
        assert Count(s[1..], c) >= 1;
      } else {
        forall k | 0 <= k < |s| && k != a ensures s[k] != c <==> (k == 0 || s[1..][k - 1] != c) { }
      }
    }
  }

  // ---------------------------------------------------------------------
  // Decimal numerals
  // ---------------------------------------------------------------------

  function DigitValue(c: char): nat requires IsDigit(c) { (c as int - '0' as int) as nat }

  function DigitChar(d: nat): (c: char)
    requires d < 10
    ensures IsDigit(c) && DigitValue(c) == d
  {
    ('0' as int + d) as char
  }

  /** The value of a string of decimal digits, most significant first. */
  function DigitsValue(s: string): nat
    requires AllDigits(s)
  {
    if |s| == 0 then 0 else DigitsValue(s[..|s| - 1]) * 10 + DigitValue(s[|s| - 1])
  }

  /** JavaScript's `Number.prototype.toString()` for a non-negative integer:
      decimal digits without leading zeros. */
  function NatToString(n: nat): (r: string)
    ensures 1 <= |r|
    ensures AllDigits(r)
    ensures DigitsValue(r) == n
    ensures |r| > 1 ==> r[0] != '0'
    ensures n < 10 <==> |r| == 1
  {
    if n < 10 then [DigitChar(n)]
    else
      var r := NatToString(n / 10) + [DigitChar(n % 10)];
      assert r[..|r| - 1] == NatToString(n / 10);
      r
  }
}
